=== FILE: README.md ===
# Preference-store rebinding in Fyne, modelled in Dafny

This project models how Fyne keeps preference bindings attached to the
application's preference store when that store is replaced at run time.

- **Binding registry** (`data/binding/pref_helper.go`). `preferencesMap` is a
  table from store identity to the store's `preferenceBindings`, which are
  items keyed by preference key. It also remembers the store last seen as the
  application's store (`appPrefs`). `getBindings` notices when the application's
  store has changed. It then migrates: the binding set moves to the new store,
  every item that supports `replaceProvider` is re-targeted, and every item is
  sent `checkForChange`.
- **Application** (`app/app.go`). `transitionCloud` installs a cloud provider
  once its `Setup` has succeeded. It picks the new store, re-registers the old
  store's change listeners on it, calls each listener once, and refreshes the
  settings. Around it sit the `UniqueID` placeholder, the `Run`/`Quit`
  `running` flag, `SetCloudProvider(nil)`, `Preferences` and
  `newDefaultPreferences`.

Stores, listeners and items are opaque identities (`nat`). Each operation is a
function or method from a state to a new state plus an event trace. The trace
records logs, store loads, listener registrations and calls, the settings
refresh, the driver run, and `replaceProvider`/`checkForChange` calls.

Modules:
- `Wrappers`: `Option` (a Go nil), `Result`, map lookup.
- `Stores`: store identity and listener lists.
- `Bindings`: `preferenceBindings`.
- `Registry`: `preferencesMap`.
- `Decimal`: `strconv.FormatInt`, with its parser.
- `App`: `fyneApp`.
- `System`: the registry's listener wired into a provider transition.

Go ranges over a map in an unspecified order, and the order can differ between
two loops. So `list()` is a method that takes the keys in an arbitrary order.
Its contract (`IsListing`) says the result follows *some* enumeration of the
keys in which each key appears exactly once. `PreferencesChanged` and
`Migrate` call `list()`, and `GetBindings` reaches it through `Migrate`, so all
three are methods for the same reason.

`migratePreferences` dereferences a nil binding set at line 107 when the old
store has no entry (or is the new store itself). Go panics there. The model
returns `Failure(NilBindingSet)` on that path instead of forbidding the input.
`getBindings` can reach this path, because it records `appPrefs` for a store
that may never have been attached.

Two consequences of the code are worth stating:
- A migration that starts inside `preferencesChanged` checks every item twice.
  `migratePreferences` ends with one sweep of `checkForChange` (line 113), and
  the calling `preferencesChanged` then sweeps the moved set again (lines
  97-99). The registry's own change listener goes through this path.
  `Registry.PreferencesChanged` states it: a migration trace followed by a
  second sweep.
- `appPrefs` is first set by `getBindings`, when it looks up the current
  application store (lines 79-81). Attaching never sets it.

## Model

| member | source | states |
|---|---|---|
| `Bindings.GetItem` | data/binding/pref_helper.go:18-23 | `getItem(key)` finds an item exactly when the key is bound, and then it is the bound item; otherwise it is nil |
| `Bindings.SetItem` | data/binding/pref_helper.go:36-40 | `setItem(key, item)` binds `key` to `item`; every other key keeps its item; the key set grows by `key` only |
| `Bindings.GetAfterSet` | data/binding/pref_helper.go:18-40 | after `setItem(k, i)`, `getItem(k)` is `i`; every other key reads as before; the key set grows by `k` only |
| `Bindings.SetTwice` | data/binding/pref_helper.go:36-40 | a second `setItem` under the same key replaces the first |
| `Bindings.KeyOrderLength` | data/binding/pref_helper.go:29-32 | a duplicate-free enumeration of a map's keys is exactly as long as the map is large |
| `Bindings.ListingShape` | data/binding/pref_helper.go:25-34 | any listing has one entry per key; every entry is an item of the map; every item of the map appears |
| `Bindings.List` | data/binding/pref_helper.go:25-34 | `list()` returns the items along some enumeration of the keys: its length is the map's size, it holds only the map's items, and each item appears exactly as often as there are keys bound to it |
| `Registry.Initial` | data/binding/pref_helper.go:49-53 | a new table holds no store and remembers no application store, so no migration can be pending and the first attachment of any store starts an empty set |
| `Registry.EnsureAttached` | data/binding/pref_helper.go:55-75 | on an attached store: returns the existing set and changes neither the table nor any listener list. On a new store: adds exactly one entry, an empty set, and appends exactly one registry listener to that store. Other entries, other stores' listeners and `appPrefs` are untouched |
| `Registry.AttachIdempotent` | data/binding/pref_helper.go:55-62 | attaching a second time is a pure lookup: same set, same table, no second listener |
| `Registry.WriteItem` | data/binding/pref_helper.go:36-40 | a `setItem` through the binding set the table holds for `p` lands in the table: `p` now reads the new item under `key`, its other keys and every other entry are unchanged |
| `Registry.WriteThenLookup` | data/binding/pref_helper.go:36-114 | an item written into a store's set is returned by a plain lookup of that store. When that store is the remembered application store and the application has moved to `q`, the lookup of `q` migrates: `q` then holds the item, and the item is checked and, if it supports it, re-targeted to `q` |
| `Registry.Migrated` | data/binding/pref_helper.go:102-105 | the table after the move: `appPrefs` is the new store; for distinct stores the new store holds the old store's set and the old store's entry is gone; every other entry is unchanged. With equal stores the entry is deleted (the case that then panics at line 107) |
| `Registry.MigratedFrame` | data/binding/pref_helper.go:102-105 | after a migration `p1`→`p2`, `p2` holds the set formerly at `p1`, overwriting any earlier set there; `p1` is gone; `appPrefs` is `p2`; all other entries are unchanged |
| `Registry.Retargets` | data/binding/pref_helper.go:107-111 | the re-targeting loop calls `replaceProvider(p2)` on listed items that support it and on no other item, as many times for each item as that item is listed |
| `Registry.Checks` | data/binding/pref_helper.go:97-99 | the sweep loop sends one `checkForChange` per listed item, to listed items only, to every listed item, and to each item exactly as many times as it is listed |
| `Registry.RetargetingLength` | data/binding/pref_helper.go:107-111 | re-targeting over any listing of a set calls `replaceProvider` exactly once per re-targetable key of the set, whatever the order of the listing |
| `Registry.MigrationLength` | data/binding/pref_helper.go:102-114 | a migration sends exactly one event per re-targetable key plus one per key |
| `Registry.SweepShape` | data/binding/pref_helper.go:92-100 | a change sweep sends `checkForChange` once per key of the set and does nothing else: each item is checked exactly as many times as there are keys bound to it |
| `Registry.RetargetingShape` | data/binding/pref_helper.go:107-111 | re-targeting over a listing reaches exactly the re-targetable items of the set, each as many times as there are keys bound to it, and no other item |
| `Registry.MigrationCounts` | data/binding/pref_helper.go:102-114 | a migration checks each item of the moved set once per key bound to it, and re-targets each re-targetable item to the new store once per key bound to it, and no other item |
| `Registry.SweepTouches` | data/binding/pref_helper.go:92-100 | a sweep sends `checkForChange` only to items of the swept set |
| `Registry.MigrationTouches` | data/binding/pref_helper.go:102-114 | a migration only touches items of the moved set: `checkForChange` to any of them, and `replaceProvider` only to re-targetable ones, aimed at the new store |
| `Registry.MigrationCovers` | data/binding/pref_helper.go:102-114 | a migration calls `replaceProvider` on every re-targetable item of the moved set and `checkForChange` on every item of it |
| `Registry.GetBindings` | data/binding/pref_helper.go:77-90 | for a store that is not the current app store: no change, and the entry or none is returned. First lookup of the current store with `appPrefs` unset: only records `appPrefs := p`. Current store already remembered: plain lookup. Current store changed: faults iff the remembered store is unattached; otherwise migrates and returns the moved set with a migration trace. Afterwards the current store is remembered |
| `Registry.PreferencesChanged` | data/binding/pref_helper.go:92-100 | without a pending migration: one sweep over the store's set, or nothing when the store is unattached. With one: the migration's trace followed by a second sweep of the moved set |
| `Registry.Migrate` | data/binding/pref_helper.go:102-114 | faults iff `p1` is unattached or is `p2`. Otherwise yields the migrated table, re-targeting first and then exactly one sweep of the moved set |
| `Registry.RepeatedLookup` | data/binding/pref_helper.go:77-90 | a second lookup of the current store right after the first does no second migration: same table, same set, no events |
| `Decimal.FormatIntRoundTrip` | app/app.go:56 | the decimal rendering of the time stamp parses back to that time stamp |
| `Decimal.FormatIntInjective` | app/app.go:56 | different time stamps render differently |
| `Decimal.ParseIntCanonical` | app/app.go:56 | the parser accepts exactly one spelling per number, the one `FormatInt` writes: no leading zeros, no "-0" |
| `App.PlaceholderSpelling` | app/app.go:56 | an ID whose suffix reads as a time stamp is exactly `"missing-id-"` followed by that stamp in decimal, so the placeholder `UniqueID` stores is pinned down |
| `App.UniqueID` | app/app.go:50-58 | with a non-empty ID: returns it and logs nothing. Without one: logs exactly one error, then stores and returns `"missing-id-"` followed by the time stamp in decimal (the suffix parses back to `now`). The result is never empty |
| `App.UniqueIDStable` | app/app.go:50-57 | once an ID exists, every later call returns it and logs nothing |
| `App.PlaceholdersDistinct` | app/app.go:56 | placeholders generated at different times differ |
| `App.Run` | app/app.go:64-76 | while `running`, `Run` is a no-op; otherwise it sets `running` and runs the driver once |
| `App.Quit` | app/app.go:111-119 | `Quit` clears `running` and changes nothing else modelled |
| `App.RunOnceUntilQuit` | app/app.go:64-76 | a second `Run` does not run the driver again; after `Quit`, `Run` runs it again |
| `App.SetCloudProvider` | app/app.go:78-85 | `nil` clears the provider and leaves the store, listeners, ID and `running` alone; a provider only starts a transition task |
| `App.Preferences` | app/app.go:134-139 | returns the current store; logs the missing-ID error, and nothing else, iff the ID is empty |
| `App.NewDefaultPreferences` | app/app.go:145-151 | creates the new store and loads it iff the ID is non-empty |
| `App.Replay` | app/app.go:102-105 | the new store's listener list becomes its old list followed by the snapshot; no other store changes; the trace has a registration and a call per listener |
| `App.ReplayInterleaves` | app/app.go:102-105 | the i-th listener is registered and then called before the next one is registered |
| `App.ReplayInvokesInOrder` | app/app.go:102-105 | each snapshot listener is called exactly once, in snapshot order |
| `App.ReplayRegistersInOrder` | app/app.go:102-105 | each snapshot listener is registered exactly once, in snapshot order |
| `App.NextStore` | app/app.go:96-100 | the new store is the provider's own store, with nothing loaded, when the provider offers one; otherwise it is the fresh default store, loaded iff there is an ID |
| `App.TransitionCloud` | app/app.go:87-109 | failed `Setup`: exactly one error naming the provider, and nothing else changes (no settings refresh). Success: the installation step `App.Install` |
| `App.Install` | app/app.go:93-108 | installs the provider; the new store is the provider's own store or the fresh default store; the snapshot is appended to the new store's listeners, other stores untouched. The trace holds nothing but the optional load of the default store, a registration on the new store and a call for each snapshot listener, and the settings refresh; it has exactly 2 events per listener, plus one for the refresh, plus one for the load; it registers the snapshot listeners exactly once each, in order, and calls them exactly once each, in order |
| `App.InstallInterleaves` | app/app.go:102-105 | within a successful transition, after the optional load, the i-th snapshot listener is registered on the new store and then called, before the next one is registered |
| `App.InstallTrace` | app/app.go:93-108 | a successful transition logs nothing, loads the default store iff it is used and there is an ID, and applies the settings exactly once, as the last event |
| `App.TransitionInvokesOldListeners` | app/app.go:95-105 | a successful transition calls the old store's listeners once each, in order |
| `App.TransitionMovesListeners` | app/app.go:95-105 | when the new store had no listeners, it ends with exactly the old store's listeners: none lost, none duplicated, same order |
| `App.NewApp` | app/app.go:159-163 | a new application has no provider, is not running, and its fresh store has no listeners; the store is loaded iff the ID is non-empty |
| `System.HookCalls` | data/binding/pref_helper.go:71-114 | if no registry listener is called, the registry is untouched. Otherwise the first call migrates when a different store is remembered (faulting iff that store is unattached), or else records the current store; later calls leave the table as it is. Every event concerns an item of the set now held for the current store, and re-targeting aims only at that store. After at least one registry listener call, every item of that set has been checked, and on a migration every re-targetable item has been re-targeted. The number of events is one sweep of that set per registry listener call, plus, when the first call migrates, one event per re-targetable key and one more sweep. Per item: it is checked once per registry listener call (plus once more on a migration) for each key bound to it, and re-targeted once per key bound to it on a migration if it supports it, and never otherwise |
| `System.HookRun` | data/binding/pref_helper.go:71-73 | the registry's listener runs `preferencesChanged` on the application's current store: it faults iff a migration is pending from an unattached store; otherwise the table and the trace are those of `preferencesChanged` |
| `System.HookStep` | data/binding/pref_helper.go:71-73 | one listener call keeps the account of the calls so far: a listener other than the registry's changes nothing, and the registry's can fault only on the first call |
| `System.FirstHook` | data/binding/pref_helper.go:71-73 | the first registry listener call faults iff a migration is pending from an unattached store; otherwise it records or migrates and sweeps, as the account of one call says |
| `System.LaterHook` | data/binding/pref_helper.go:71-73 | a later registry listener call cannot fault and adds one more sweep of the current set |
| `System.TransitionCloud` | app/app.go:87-109 | the application step and its events are those of `App.TransitionCloud`, so on success the application is on the provider's store or the new default store. Failed `Setup` leaves the application and registry unchanged. On success, from a linked state: the bindings of the old store are now held for the new store; the old store's entry is gone; other entries are unchanged; the state is linked again; every registry event touches an item of the moved set; every moved item is checked; when the store changed, every re-targetable moved item is re-targeted to the new store; the number of registry events is one sweep of the moved set per registry listener on the old store, plus, when the store changed, one event per re-targetable key and one more sweep; per item, the check and re-target counts are those of `System.HookCalls` for the old store's listener list |
| `System.Startup` | data/binding/pref_helper.go:55-90 | a new application whose store gets its first binding: the empty registry attaches the store, which carries exactly the registry's listener, and the lookup records it as the application's store, so the state is linked, with no registry events |
| `System.LinkedAfterTransition` | data/binding/pref_helper.go:102-105 | a migration driven by the transition's listener call keeps the registry linked to the application |

"Linked" means three things. The registry remembers the application's store.
It holds a set for that store. And every store it holds a set for carries the
registry's change listener.

## Left out

- Locks and the goroutine. `sync.RWMutex`, `sync.Mutex` and `go transitionCloud`
  are left out, and every operation runs to completion. That also leaves out
  two races: migration writes the table while holding only the read lock, and
  `ensurePreferencesAttached` checks and then creates in two steps.
- `Setup`, `ProviderName`, `CloudPreferences`. `Setup`'s outcome is an input
  (`setupErr`). The provider's name and its store are fields of `Provider`.
- `checkForChange` and `replaceProvider`. Their bodies are not shown, so they
  appear only as trace events.
- Preference values, `load()`, serialisation. A store load is recorded as an
  event. `newDefaultPreferences` checks whether the store has a `load` method;
  the concrete preferences type always has one, so only the ID decides.
- Settings. Loading, watching and `apply` internals are out; `apply` is an
  event.
- The driver, windows, `Quit`'s window loop, `stopWatching`, icons, storage and
  lifecycle. These are UI and plumbing.
- `exec.Command`, `repository.Register` and the HTTP repositories in
  `newAppWithDriver`. These are I/O and plumbing; `App.NewApp` keeps only the state.
- `time.Now()` is the parameter `now`. `fyne.CurrentApp()` is the parameter
  `current`, the application's store at the time of the call.
- The new store that `newPreferences` allocates is the parameter `newStore`.
  `newPreferences` is not part of this model, so any listener it registers on
  its own store is not modelled.
- App.NewApp: its new store starts with no listeners. Any listener that
  `newPreferences` itself registers is not modelled.
- App.TransitionMovesListeners: its hypothesis that the new store has no
  listeners yet stands for a store `newPreferences` has just created. Any
  listener `newPreferences` itself registers is not modelled.
- Registry.GetBindings: `current` stands for `fyne.CurrentApp().Preferences()`
  (line 79, and again in the nested lookup of line 113). That call logs an
  error when the application has no ID, and the registry trace does not
  record it.
- System.HookCalls: the registry's listener reads the store through
  `Preferences()`, which logs when the ID is empty; that log entry is not
  added to the trace. Listeners other than the registry's are assumed not to
  touch the registry. The events are described by the items they touch, the
  items they cover, their number and how often each item is checked or
  re-targeted, not by their order.
- System.TransitionCloud: its success contract is stated only from a linked
  state. The registry events are described by the items they touch, the
  items they cover, their number and per-item counts, not by their order.
- Registry.WriteItem: a binding set is a value here, while Go shares it
  through a pointer. A write is therefore addressed by the store whose entry
  holds the set. A caller that kept the pointer across a migration writes
  into the set now held for the new store, which is `WriteItem` on the new
  store.
- Decimal.FormatIntRoundTrip: integers are unbounded, so the 64-bit range of
  `FormatInt`'s argument is not modelled.

=== FILE: app.dfy ===
/**
 * `fyneApp` (app/app.go), reduced to the state the preference rebinding
 * touches: the unique ID, the cloud provider, the current preference store,
 * the listener lists of all stores, and the `running` flag. Logging, store
 * loading, listener calls, settings refresh and the driver run are recorded as
 * events instead of being performed.
 */
module App {
  import opened Wrappers
  import opened Stores
  import Decimal

  /**
   * A cloud provider. `cloudPreferences` is the store its `CloudPreferences`
   * method yields, or None when the provider does not offer that method.
   */
  datatype Provider = Provider(name: string, cloudPreferences: Option<StoreId>)

  datatype App = App(
    uniqueID: string,
    cloud: Option<Provider>,
    prefs: StoreId,
    stores: World,
    running: bool)

  datatype Event =
    | LogError(message: string, err: Option<string>)
    | Loaded(store: StoreId)
    | Registered(store: StoreId, listener: Listener)
    | Invoked(listener: Listener)
    | SettingsApplied
    | DriverRun

  datatype Step = Step(app: App, events: seq<Event>)
  datatype Named = Named(app: App, id: string, events: seq<Event>)
  datatype Read = Read(store: StoreId, events: seq<Event>)
  datatype Spawn = Spawn(app: App, task: Option<Provider>)
  datatype Replayed = Replayed(world: World, events: seq<Event>)

  const MissingIdMessage: string := "Preferences API requires a unique ID, use app.NewWithID()"
  const MissingIdPrefix: string := "missing-id-"
  const SetupFailedPrefix: string := "Failed to set up cloud provider "

  /** The time stamp a generated placeholder ID was made from, if `id` is one. */
  function PlaceholderTime(id: string): Option<int>
  {
    if |id| >= |MissingIdPrefix| && id[..|MissingIdPrefix|] == MissingIdPrefix then
      Decimal.ParseInt(id[|MissingIdPrefix|..])
    else
      None
  }

  /**
   * `UniqueID()` at Unix time `now`: the configured ID, or else a logged error
   * and a placeholder built from `now`, which is stored for later calls.
   */
  function UniqueID(a: App, now: int): (r: Named)
    ensures r.id != "" && r.app.uniqueID == r.id
    ensures a.uniqueID != "" ==> r == Named(a, a.uniqueID, [])
    ensures a.uniqueID == "" ==>
              && r.events == [LogError(MissingIdMessage, None)]
              && r.app == a.(uniqueID := r.id)
              && PlaceholderTime(r.id) == Some(now)
  {
    if a.uniqueID != "" then
      Named(a, a.uniqueID, [])
    else
      var id := MissingIdPrefix + Decimal.FormatInt(now);
      assert id[..|MissingIdPrefix|] == MissingIdPrefix && id[|MissingIdPrefix|..] == Decimal.FormatInt(now);
      Decimal.FormatIntRoundTrip(now);
      Named(a.(uniqueID := id), id, [LogError(MissingIdMessage, None)])
  }

  /** Once an ID exists, later calls at any time return it and log nothing. */
  lemma UniqueIDStable(a: App, t1: int, t2: int)
    ensures var first := UniqueID(a, t1);
            var second := UniqueID(first.app, t2);
            second == Named(first.app, first.id, [])
  {
  }

  /**
   * A placeholder names its time stamp in exactly one spelling, so the
   * placeholder `UniqueID` stores is the prefix followed by the decimal time.
   */
  lemma PlaceholderSpelling(id: string, t: int)
    requires PlaceholderTime(id) == Some(t)
    ensures id == MissingIdPrefix + Decimal.FormatInt(t)
  {
    Decimal.ParseIntCanonical(id[|MissingIdPrefix|..], t);
    assert id == id[..|MissingIdPrefix|] + id[|MissingIdPrefix|..];
  }

  /** Placeholders made at different times differ. */
  lemma PlaceholdersDistinct(a: App, t1: int, t2: int)
    requires a.uniqueID == "" && t1 != t2
    ensures UniqueID(a, t1).id != UniqueID(a, t2).id
  {
  }

  /** `Run()`: starts the driver unless the application is already running. */
  function Run(a: App): (r: Step)
    ensures r.app.running
    ensures a.running ==> r == Step(a, [])
    ensures !a.running ==> r.app == a.(running := true) && r.events == [DriverRun]
  {
    if a.running then Step(a, []) else Step(a.(running := true), [DriverRun])
  }

  /** `Quit()`, without the window and driver shutdown: clears `running`. */
  function Quit(a: App): (r: App)
    ensures !r.running && r.(running := a.running) == a
  {
    a.(running := false)
  }

  /** A second `Run` is a no-op; after `Quit` the driver runs again. */
  lemma RunOnceUntilQuit(a: App)
    ensures Run(Run(a).app) == Step(Run(a).app, [])
    ensures Run(Quit(Run(a).app)).events == [DriverRun]
  {
  }

  /**
   * `SetCloudProvider(p)`: None clears the provider at once; a provider is
   * handed to a background `transitionCloud` task and nothing changes yet.
   */
  function SetCloudProvider(a: App, p: Option<Provider>): (r: Spawn)
    ensures r.app.prefs == a.prefs && r.app.stores == a.stores
    ensures r.app.uniqueID == a.uniqueID && r.app.running == a.running
    ensures p.None? ==> r.app.cloud == None && r.task == None
    ensures p.Some? ==> r.app == a && r.task == p
  {
    match p
    case None => Spawn(a.(cloud := None), None)
    case Some(_) => Spawn(a, p)
  }

  /** `Preferences()`: the current store, with an error logged when there is no ID. */
  function Preferences(a: App): (r: Read)
    ensures r.store == a.prefs
    ensures |r.events| <= 1
    ensures r.events != [] <==> a.uniqueID == ""
    ensures forall e :: e in r.events ==> e == LogError(MissingIdMessage, None)
  {
    Read(a.prefs, if a.uniqueID == "" then [LogError(MissingIdMessage, None)] else [])
  }

  /** `newDefaultPreferences()` with `newStore` the store it creates; it is loaded iff there is an ID. */
  function NewDefaultPreferences(a: App, newStore: StoreId): (r: Read)
    ensures r.store == newStore
    ensures |r.events| <= 1
    ensures Loaded(newStore) in r.events <==> a.uniqueID != ""
    ensures forall e :: e in r.events ==> e == Loaded(newStore)
  {
    Read(newStore, if a.uniqueID != "" then [Loaded(newStore)] else [])
  }

  /** The listeners a trace invokes, in order. */
  function Invocations(es: seq<Event>): seq<Listener>
  {
    if es == [] then []
    else (if es[0].Invoked? then [es[0].listener] else []) + Invocations(es[1..])
  }

  lemma {:induction false} InvocationsAppend(xs: seq<Event>, ys: seq<Event>)
    ensures Invocations(xs + ys) == Invocations(xs) + Invocations(ys)
    decreases |xs|
  {
    if xs == [] {
      assert xs + ys == ys;
    } else {
      assert (xs + ys)[0] == xs[0];
      assert (xs + ys)[1..] == xs[1..] + ys;
      InvocationsAppend(xs[1..], ys);
    }
  }

  /** The listeners a trace registers, on whatever store, in order. */
  function Registrations(es: seq<Event>): seq<Listener>
  {
    if es == [] then []
    else (if es[0].Registered? then [es[0].listener] else []) + Registrations(es[1..])
  }

  lemma {:induction false} RegistrationsAppend(xs: seq<Event>, ys: seq<Event>)
    ensures Registrations(xs + ys) == Registrations(xs) + Registrations(ys)
    decreases |xs|
  {
    if xs == [] {
      assert xs + ys == ys;
    } else {
      assert (xs + ys)[0] == xs[0];
      assert (xs + ys)[1..] == xs[1..] + ys;
      RegistrationsAppend(xs[1..], ys);
    }
  }

  /** Registration of each listener on `s`, each followed by its call. */
  function Pairs(s: StoreId, ls: seq<Listener>): seq<Event>
  {
    if ls == [] then [] else [Registered(s, ls[0]), Invoked(ls[0])] + Pairs(s, ls[1..])
  }

  /**
   * The loop of lines 102-105: each listener is added to store `s` and then
   * called, one listener at a time, in order.
   */
  function Replay(w: World, s: StoreId, ls: seq<Listener>): (r: Replayed)
    ensures ListenersOf(r.world, s) == ListenersOf(w, s) + ls
    ensures forall t :: t != s ==> ListenersOf(r.world, t) == ListenersOf(w, t)
    ensures |r.events| == 2 * |ls|
    ensures forall e :: e in r.events ==>
              (e.Registered? && e.store == s && e.listener in ls) || (e.Invoked? && e.listener in ls)
    ensures r.events == Pairs(s, ls)
    decreases |ls|
  {
    if ls == [] then
      Replayed(w, [])
    else
      var rest := Replay(AddChangeListener(w, s, ls[0]), s, ls[1..]);
      assert ListenersOf(w, s) + [ls[0]] + ls[1..] == ListenersOf(w, s) + ls;
      Replayed(rest.world, [Registered(s, ls[0]), Invoked(ls[0])] + rest.events)
  }

  lemma {:induction false} PairsInterleave(s: StoreId, ls: seq<Listener>, i: nat)
    requires i < |ls|
    ensures |Pairs(s, ls)| == 2 * |ls|
    ensures Pairs(s, ls)[2 * i] == Registered(s, ls[i])
    ensures Pairs(s, ls)[2 * i + 1] == Invoked(ls[i])
    decreases i
  {
    var rest := Pairs(s, ls[1..]);
    PairsLength(s, ls[1..]);
    if i > 0 {
      var j := i - 1;
      PairsInterleave(s, ls[1..], j);
      IndexAfterPair(Pairs(s, ls), [Registered(s, ls[0]), Invoked(ls[0])], rest, j);
      assert ls[1..][j] == ls[i];
    }
  }

  lemma {:induction false} PairsLength(s: StoreId, ls: seq<Listener>)
    ensures |Pairs(s, ls)| == 2 * |ls|
    decreases |ls|
  {
    if ls != [] {
      PairsLength(s, ls[1..]);
    }
  }

  lemma IndexAfterPair<T>(full: seq<T>, head: seq<T>, rest: seq<T>, j: nat)
    requires |head| == 2 && full == head + rest && 2 * j + 1 < |rest|
    ensures full[2 * (j + 1)] == rest[2 * j] && full[2 * (j + 1) + 1] == rest[2 * j + 1]
  {
  }

  /**
   * Replaying alternates strictly: the i-th listener is registered on `s` and
   * then called, before the next one is registered.
   */
  lemma ReplayInterleaves(w: World, s: StoreId, ls: seq<Listener>, i: nat)
    requires i < |ls|
    ensures Replay(w, s, ls).events[2 * i] == Registered(s, ls[i])
    ensures Replay(w, s, ls).events[2 * i + 1] == Invoked(ls[i])
  {
    PairsInterleave(s, ls, i);
  }

  /** Replaying calls every listener exactly once, in the order given. */
  lemma ReplayInvokesInOrder(w: World, s: StoreId, ls: seq<Listener>)
    ensures Invocations(Replay(w, s, ls).events) == ls
  {
    PairsInvocations(s, ls);
  }

  lemma {:induction false} PairsInvocations(s: StoreId, ls: seq<Listener>)
    ensures Invocations(Pairs(s, ls)) == ls
    decreases |ls|
  {
    if ls != [] {
      var head := [Registered(s, ls[0]), Invoked(ls[0])];
      InvocationsAppend(head, Pairs(s, ls[1..]));
      assert Invocations(head) == [ls[0]] by {
        assert head[1..] == [Invoked(ls[0])];
        assert head[1..][1..] == [];
      }
      PairsInvocations(s, ls[1..]);
    }
  }

  lemma {:induction false} PairsRegistrations(s: StoreId, ls: seq<Listener>)
    ensures Registrations(Pairs(s, ls)) == ls
    decreases |ls|
  {
    if ls != [] {
      var head := [Registered(s, ls[0]), Invoked(ls[0])];
      RegistrationsAppend(head, Pairs(s, ls[1..]));
      assert Registrations(head) == [ls[0]] by {
        assert head[1..] == [Invoked(ls[0])];
        assert head[1..][1..] == [];
      }
      PairsRegistrations(s, ls[1..]);
    }
  }

  /** Replaying registers every listener on `s` exactly once, in the order given. */
  lemma ReplayRegistersInOrder(w: World, s: StoreId, ls: seq<Listener>)
    ensures Registrations(Replay(w, s, ls).events) == ls
  {
    PairsRegistrations(s, ls);
  }

  /** The store a successful transition installs. */
  function NextStore(a: App, p: Provider, newStore: StoreId): (r: Read)
    ensures p.cloudPreferences.Some? ==> r == Read(p.cloudPreferences.value, [])
    ensures p.cloudPreferences.None? ==> r.store == newStore
    ensures p.cloudPreferences.None? ==> (r.events == [Loaded(newStore)] <==> a.uniqueID != "")
    ensures p.cloudPreferences.None? ==> (r.events == [] <==> a.uniqueID == "")
  {
    match p.cloudPreferences
    case Some(s) => Read(s, [])
    case None => NewDefaultPreferences(a, newStore)
  }

  /**
   * `transitionCloud(p)` once `Setup` has answered: `setupErr` is its error,
   * None on success, and `newStore` is the store a default construction would
   * create.
   */
  function TransitionCloud(a: App, p: Provider, setupErr: Option<string>, newStore: StoreId): (r: Step)
    ensures setupErr.Some? ==> r == Step(a, [LogError(SetupFailedPrefix + p.name, setupErr)])
    ensures setupErr.None? ==> r == Install(a, p, newStore)
  {
    if setupErr.Some? then
      Step(a, [LogError(SetupFailedPrefix + p.name, setupErr)])
    else
      Install(a, p, newStore)
  }

  /**
   * The part of `transitionCloud(p)` after a successful `Setup` (lines 95-108):
   * pick the new store, replay the old store's listeners onto it, apply the
   * settings.
   */
  function Install(a: App, p: Provider, newStore: StoreId): (r: Step)
    ensures r.app.cloud == Some(p)
    ensures r.app.prefs == (if p.cloudPreferences.Some? then p.cloudPreferences.value else newStore)
    ensures r.app.uniqueID == a.uniqueID && r.app.running == a.running
    ensures ListenersOf(r.app.stores, r.app.prefs)
            == ListenersOf(a.stores, r.app.prefs) + ListenersOf(a.stores, a.prefs)
    ensures forall t :: t != r.app.prefs ==> ListenersOf(r.app.stores, t) == ListenersOf(a.stores, t)
    ensures forall e :: e in r.events ==>
              || e == Loaded(newStore)
              || e == SettingsApplied
              || (e.Registered? && e.store == r.app.prefs && e.listener in ListenersOf(a.stores, a.prefs))
              || (e.Invoked? && e.listener in ListenersOf(a.stores, a.prefs))
    ensures |r.events| == 2 * |ListenersOf(a.stores, a.prefs)| + 1
                          + (if p.cloudPreferences.None? && a.uniqueID != "" then 1 else 0)
    ensures Invocations(r.events) == ListenersOf(a.stores, a.prefs)
    ensures Registrations(r.events) == ListenersOf(a.stores, a.prefs)
  {
    var listeners := ListenersOf(a.stores, a.prefs);
    var next := NextStore(a, p, newStore);
    var replayed := Replay(a.stores, next.store, listeners);
    var es := next.events + replayed.events + [SettingsApplied];
    SuccessTrace(es, next.events, next.store, listeners, newStore);
    Step(a.(cloud := Some(p), prefs := next.store, stores := replayed.world), es)
  }

  /**
   * A successful transition logs nothing, loads the default store iff it is
   * used and there is an ID, and applies the settings exactly once, last.
   */
  lemma InstallTrace(a: App, p: Provider, newStore: StoreId)
    ensures var es := Install(a, p, newStore).events;
            && |es| >= 1 && es[|es| - 1] == SettingsApplied
            && SettingsApplied !in es[..|es| - 1]
            && (Loaded(newStore) in es <==> p.cloudPreferences.None? && a.uniqueID != "")
            && (forall e :: e in es ==> !e.LogError?)
  {
    var listeners := ListenersOf(a.stores, a.prefs);
    var next := NextStore(a, p, newStore);
    var replayed := Replay(a.stores, next.store, listeners);
    SuccessTraceShape(Install(a, p, newStore).events, next.events, next.store, listeners, newStore);
  }

  /**
   * The replay inside a successful transition alternates strictly: after the
   * optional load, the i-th old-store listener is registered on the new store
   * and then called, before the next one is registered.
   */
  lemma InstallInterleaves(a: App, p: Provider, newStore: StoreId, i: nat)
    requires i < |ListenersOf(a.stores, a.prefs)|
    ensures var r := Install(a, p, newStore);
            var k := (if p.cloudPreferences.None? && a.uniqueID != "" then 1 else 0) + 2 * i;
            && k + 1 < |r.events|
            && r.events[k] == Registered(r.app.prefs, ListenersOf(a.stores, a.prefs)[i])
            && r.events[k + 1] == Invoked(ListenersOf(a.stores, a.prefs)[i])
  {
    var listeners := ListenersOf(a.stores, a.prefs);
    var next := NextStore(a, p, newStore);
    InstallEvents(a, p, newStore);
    PairsInterleave(next.store, listeners, i);
    IndexInside(next.events, Pairs(next.store, listeners), [SettingsApplied], 2 * i);
    IndexInside(next.events, Pairs(next.store, listeners), [SettingsApplied], 2 * i + 1);
  }

  /** A successful transition's trace, spelled out. */
  lemma InstallEvents(a: App, p: Provider, newStore: StoreId)
    ensures var next := NextStore(a, p, newStore);
            && Install(a, p, newStore).app.prefs == next.store
            && Install(a, p, newStore).events
               == next.events + Pairs(next.store, ListenersOf(a.stores, a.prefs)) + [SettingsApplied]
            && |next.events| == (if p.cloudPreferences.None? && a.uniqueID != "" then 1 else 0)
  {
  }

  lemma IndexInside<T>(pre: seq<T>, mid: seq<T>, post: seq<T>, j: nat)
    requires j < |mid|
    ensures |pre| + j < |pre + mid + post| && (pre + mid + post)[|pre| + j] == mid[j]
  {
  }

  /**
   * The trace of a successful transition: an optional load, the replay of `ls`
   * onto `s`, then the settings refresh, and nothing else.
   */
  lemma SuccessTrace(es: seq<Event>, pre: seq<Event>, s: StoreId, ls: seq<Listener>, newStore: StoreId)
    requires |pre| <= 1 && forall e :: e in pre ==> e == Loaded(newStore)
    requires es == pre + Pairs(s, ls) + [SettingsApplied]
    ensures forall e :: e in es ==>
              || e == Loaded(newStore)
              || e == SettingsApplied
              || (e.Registered? && e.store == s && e.listener in ls)
              || (e.Invoked? && e.listener in ls)
    ensures |es| == |pre| + 2 * |ls| + 1
    ensures es[|es| - 1] == SettingsApplied
    ensures SettingsApplied !in es[..|es| - 1]
    ensures Loaded(newStore) in es <==> pre != []
    ensures Invocations(es) == ls
    ensures Registrations(es) == ls
  {
    SuccessTraceShape(es, pre, s, ls, newStore);
    SuccessTraceInvocations(pre, s, ls, newStore);
    SuccessTraceRegistrations(pre, s, ls, newStore);
  }

  lemma SuccessTraceShape(es: seq<Event>, pre: seq<Event>, s: StoreId, ls: seq<Listener>, newStore: StoreId)
    requires |pre| <= 1 && forall e :: e in pre ==> e == Loaded(newStore)
    requires es == pre + Pairs(s, ls) + [SettingsApplied]
    ensures forall e :: e in es ==>
              || e == Loaded(newStore)
              || e == SettingsApplied
              || (e.Registered? && e.store == s && e.listener in ls)
              || (e.Invoked? && e.listener in ls)
    ensures |es| == |pre| + 2 * |ls| + 1
    ensures es[|es| - 1] == SettingsApplied
    ensures SettingsApplied !in es[..|es| - 1]
    ensures Loaded(newStore) in es <==> pre != []
  {
    PairsShape(s, ls);
    assert es[..|es| - 1] == pre + Pairs(s, ls);
    if pre != [] {
      assert pre[0] in pre;
      assert es[0] == Loaded(newStore);
    }
  }

  lemma SuccessTraceInvocations(pre: seq<Event>, s: StoreId, ls: seq<Listener>, newStore: StoreId)
    requires |pre| <= 1 && forall e :: e in pre ==> e == Loaded(newStore)
    ensures Invocations(pre + Pairs(s, ls) + [SettingsApplied]) == ls
  {
    assert pre + Pairs(s, ls) + [SettingsApplied] == pre + (Pairs(s, ls) + [SettingsApplied]);
    InvocationsAppend(pre, Pairs(s, ls) + [SettingsApplied]);
    InvocationsAppend(Pairs(s, ls), [SettingsApplied]);
    PairsInvocations(s, ls);
    LoadsInvokeNothing(pre, newStore);
  }

  lemma SuccessTraceRegistrations(pre: seq<Event>, s: StoreId, ls: seq<Listener>, newStore: StoreId)
    requires |pre| <= 1 && forall e :: e in pre ==> e == Loaded(newStore)
    ensures Registrations(pre + Pairs(s, ls) + [SettingsApplied]) == ls
  {
    assert pre + Pairs(s, ls) + [SettingsApplied] == pre + (Pairs(s, ls) + [SettingsApplied]);
    RegistrationsAppend(pre, Pairs(s, ls) + [SettingsApplied]);
    RegistrationsAppend(Pairs(s, ls), [SettingsApplied]);
    PairsRegistrations(s, ls);
    LoadsInvokeNothing(pre, newStore);
  }

  lemma LoadsInvokeNothing(pre: seq<Event>, newStore: StoreId)
    requires |pre| <= 1 && forall e :: e in pre ==> e == Loaded(newStore)
    ensures Invocations(pre) == [] && Registrations(pre) == []
  {
    if pre != [] {
      assert pre[0] in pre;
      assert pre == [Loaded(newStore)];
    }
  }

  lemma {:induction false} PairsShape(s: StoreId, ls: seq<Listener>)
    ensures |Pairs(s, ls)| == 2 * |ls|
    ensures forall e :: e in Pairs(s, ls) ==>
              (e.Registered? && e.store == s && e.listener in ls) || (e.Invoked? && e.listener in ls)
    decreases |ls|
  {
    if ls != [] {
      PairsShape(s, ls[1..]);
      assert Pairs(s, ls) == [Registered(s, ls[0]), Invoked(ls[0])] + Pairs(s, ls[1..]);
    }
  }

  /**
   * After a successful transition every listener of the old store has been
   * called once, in its registration order.
   */
  lemma TransitionInvokesOldListeners(a: App, p: Provider, newStore: StoreId)
    ensures Invocations(TransitionCloud(a, p, None, newStore).events) == ListenersOf(a.stores, a.prefs)
  {
  }

  /**
   * When the new store had no listeners of its own (a freshly created default
   * store), it ends up with exactly the old store's listeners: none lost, none
   * duplicated, same order.
   */
  lemma TransitionMovesListeners(a: App, p: Provider, newStore: StoreId)
    requires ListenersOf(a.stores, if p.cloudPreferences.Some? then p.cloudPreferences.value else newStore) == []
    ensures var r := TransitionCloud(a, p, None, newStore);
            ListenersOf(r.app.stores, r.app.prefs) == ListenersOf(a.stores, a.prefs)
  {
  }

  /** `newAppWithDriver(d, id)`, state part only: a new default store and no provider. */
  function NewApp(id: string, newStore: StoreId): (r: Step)
    ensures r.app.uniqueID == id && r.app.prefs == newStore && r.app.cloud == None && !r.app.running
    ensures ListenersOf(r.app.stores, r.app.prefs) == []
    ensures r.events == (if id != "" then [Loaded(newStore)] else [])
  {
    var blank := App(id, None, newStore, map[], false);
    var created := NewDefaultPreferences(blank, newStore);
    Step(blank, created.events)
  }
}

=== FILE: bindings.dfy ===
/**
 * `preferenceBindings` (data/binding/pref_helper.go): the per-store set of
 * preference items, keyed by preference key.
 */
module Bindings {
  import opened Wrappers

  type Key = string

  /**
   * A preference item. `id` is its identity; `retargetable` records whether it
   * also has the optional `replaceProvider` method.
   */
  datatype Item = Item(id: nat, retargetable: bool)

  datatype BindingSet = BindingSet(items: map<Key, Item>)

  /** The set a first attachment creates: no items. */
  const Empty: BindingSet := BindingSet(map[])

  /** `getItem(key)`: the item bound to `key`, or None (nil) when there is none. */
  function GetItem(b: BindingSet, key: Key): (r: Option<Item>)
    ensures r.Some? <==> key in b.items
    ensures r.Some? ==> r.value == b.items[key]
  {
    Get(b.items, key)
  }

  /** `setItem(key, item)`: binds `key` to `item`, replacing any earlier item. */
  function SetItem(b: BindingSet, key: Key, item: Item): (r: BindingSet)
    ensures key in r.items && r.items[key] == item
    ensures forall k :: k != key ==> Get(r.items, k) == Get(b.items, k)
    ensures r.items.Keys == b.items.Keys + {key}
  {
    BindingSet(b.items[key := item])
  }

  /** After `setItem(k, i)`, `getItem(k)` is `i` and every other key reads as before. */
  lemma GetAfterSet(b: BindingSet, k: Key, i: Item)
    ensures GetItem(SetItem(b, k, i), k) == Some(i)
    ensures forall k' :: k' != k ==> GetItem(SetItem(b, k, i), k') == GetItem(b, k')
    ensures SetItem(b, k, i).items.Keys == b.items.Keys + {k}
  {
  }

  /** Setting an item twice under the same key keeps only the later one. */
  lemma SetTwice(b: BindingSet, k: Key, i: Item, j: Item)
    ensures SetItem(SetItem(b, k, i), k, j) == SetItem(b, k, j)
  {
  }

  ghost predicate Distinct<T>(s: seq<T>)
  {
    forall i, j :: 0 <= i < j < |s| ==> s[i] != s[j]
  }

  /** `ks` enumerates the keys of `m`: each key exactly once, nothing else. */
  ghost predicate KeyOrder(ks: seq<Key>, m: map<Key, Item>)
  {
    && Distinct(ks)
    && (forall i :: 0 <= i < |ks| ==> ks[i] in m)
    && (forall k :: k in m ==> k in ks)
  }

  /** The items found under `ks`, in that order. */
  function ItemsAt(m: map<Key, Item>, ks: seq<Key>): seq<Item>
    requires forall i :: 0 <= i < |ks| ==> ks[i] in m
  {
    seq(|ks|, i requires 0 <= i < |ks| => m[ks[i]])
  }

  /**
   * `ret` is what one `range` over `m` may produce: the items along some
   * enumeration of the keys (Go leaves the order unspecified).
   */
  ghost predicate IsListing(ret: seq<Item>, m: map<Key, Item>)
  {
    exists ks :: KeyOrder(ks, m) && ret == ItemsAt(m, ks)
  }

  /** An enumeration of the keys is exactly as long as the map is large. */
  lemma {:induction false} KeyOrderLength(ks: seq<Key>, m: map<Key, Item>)
    requires KeyOrder(ks, m)
    ensures |ks| == |m|
    decreases |ks|
  {
    if ks == [] {
      assert m.Keys == {};
    } else {
      var k := ks[0];
      var m' := m - {k};
      var rest := ks[1..];
      forall i | 0 <= i < |rest| ensures rest[i] in m' {
        assert rest[i] == ks[i + 1] && ks[i + 1] != ks[0];
      }
      forall k' | k' in m' ensures k' in rest {
        var j :| 0 <= j < |ks| && ks[j] == k';
        assert j != 0;
        assert rest[j - 1] == k';
      }
      assert Distinct(rest) by {
        forall i, j | 0 <= i < j < |rest| ensures rest[i] != rest[j] {
          assert rest[i] == ks[i + 1] && rest[j] == ks[j + 1];
        }
      }
      KeyOrderLength(rest, m');
      assert m'.Keys == m.Keys - {k};
    }
  }

  /** Every listing has one entry per key, and lists exactly the items of `m`. */
  lemma ListingShape(ret: seq<Item>, m: map<Key, Item>)
    requires IsListing(ret, m)
    ensures |ret| == |m|
    ensures forall i :: 0 <= i < |ret| ==> ret[i] in m.Values
    ensures forall k :: k in m ==> m[k] in ret
  {
    var ks :| KeyOrder(ks, m) && ret == ItemsAt(m, ks);
    KeyOrderLength(ks, m);
    forall k | k in m ensures m[k] in ret {
      var j :| 0 <= j < |ks| && ks[j] == k;
      assert ret[j] == m[k];
    }
  }

  lemma DistinctTail(ks: seq<Key>, m: map<Key, Item>)
    requires ks != [] && Distinct(ks) && forall i :: 0 <= i < |ks| ==> ks[i] in m
    ensures Distinct(ks[1..]) && ks[0] !in ks[1..]
    ensures forall i :: 0 <= i < |ks[1..]| ==> ks[1..][i] in m
  {
    var rest := ks[1..];
    forall i, j | 0 <= i < j < |rest| ensures rest[i] != rest[j] {
      assert rest[i] == ks[i + 1] && rest[j] == ks[j + 1];
    }
    forall i | 0 <= i < |rest| ensures rest[i] != ks[0] && rest[i] in m {
      assert rest[i] == ks[i + 1];
    }
  }

  lemma ItemsAtCons(m: map<Key, Item>, ks: seq<Key>)
    requires ks != [] && forall i :: 0 <= i < |ks| ==> ks[i] in m
    ensures forall i :: 0 <= i < |ks[1..]| ==> ks[1..][i] in m
    ensures ItemsAt(m, ks) == [m[ks[0]]] + ItemsAt(m, ks[1..])
  {
    assert forall i :: 0 <= i < |ks[1..]| ==> ks[1..][i] == ks[i + 1];
  }

  /** The keys under which `m` holds item `i`. */
  function KeysHolding(m: map<Key, Item>, i: Item): set<Key>
  {
    set k | k in m && m[k] == i
  }

  /** The keys of `ks` under which `m` holds item `i`. */
  function HoldingAlong(ks: seq<Key>, m: map<Key, Item>, i: Item): (r: set<Key>)
    ensures forall k :: k in r <==> k in ks && k in m && m[k] == i
  {
    if ks == [] then {}
    else
      assert ks == [ks[0]] + ks[1..];
      (if ks[0] in m && m[ks[0]] == i then {ks[0]} else {}) + HoldingAlong(ks[1..], m, i)
  }

  /** Along a duplicate-free run of keys, an item occurs once per key that holds it. */
  lemma {:induction false} ItemsAtCount(ks: seq<Key>, m: map<Key, Item>, i: Item)
    requires Distinct(ks) && forall j :: 0 <= j < |ks| ==> ks[j] in m
    ensures multiset(ItemsAt(m, ks))[i] == |HoldingAlong(ks, m, i)|
    decreases |ks|
  {
    if ks != [] {
      DistinctTail(ks, m);
      ItemsAtCount(ks[1..], m, i);
      ItemsAtCons(m, ks);
      assert ks[0] !in HoldingAlong(ks[1..], m, i);
    }
  }

  /** A listing holds each item exactly as often as the map binds it. */
  lemma ListingCount(ret: seq<Item>, m: map<Key, Item>)
    requires IsListing(ret, m)
    ensures forall i :: multiset(ret)[i] == |KeysHolding(m, i)|
  {
    var ks :| KeyOrder(ks, m) && ret == ItemsAt(m, ks);
    forall i ensures multiset(ret)[i] == |KeysHolding(m, i)| {
      ItemsAtCount(ks, m, i);
      assert HoldingAlong(ks, m, i) == KeysHolding(m, i);
    }
  }

  /**
   * `list()`: a snapshot of all items. The loop takes the keys in an arbitrary
   * order, as Go's `range` over a map does.
   */
  method List(b: BindingSet) returns (ret: seq<Item>)
    ensures IsListing(ret, b.items)
    ensures |ret| == |b.items|
    ensures forall i :: 0 <= i < |ret| ==> ret[i] in b.items.Values
    ensures forall k :: k in b.items ==> b.items[k] in ret
    ensures forall i :: multiset(ret)[i] == |KeysHolding(b.items, i)|
  {
    ret := [];
    ghost var ks: seq<Key> := [];
    var rest := b.items.Keys;
    while rest != {}
      invariant rest <= b.items.Keys
      invariant Distinct(ks)
      invariant forall i :: 0 <= i < |ks| ==> ks[i] in b.items && ks[i] !in rest
      invariant forall k :: k in b.items ==> k in rest || k in ks
      invariant ret == ItemsAt(b.items, ks)
      decreases rest
    {
      var k :| k in rest;
      ret := ret + [b.items[k]];
      ks := ks + [k];
      rest := rest - {k};
    }
    assert KeyOrder(ks, b.items);
    ListingShape(ret, b.items);
    ListingCount(ret, b.items);
  }
}

=== FILE: decimal.dfy ===
/**
 * Base-10 rendering of integers, as `strconv.FormatInt(n, 10)` produces it,
 * together with the parser that reads such a rendering back.
 */
module Decimal {
  import opened Wrappers

  predicate IsDigit(c: char)
  {
    '0' <= c <= '9'
  }

  function DigitChar(d: nat): (c: char)
    requires d < 10
    ensures IsDigit(c)
  {
    (48 + d) as char
  }

  function DigitValue(c: char): (d: nat)
    requires IsDigit(c)
    ensures d < 10 && DigitChar(d) == c
  {
    (c as int - 48) as nat
  }

  /** Digits of `n` with no leading zero (a single "0" for zero). */
  function FormatNat(n: nat): (s: string)
    ensures |s| >= 1
    ensures forall i :: 0 <= i < |s| ==> IsDigit(s[i])
    ensures |s| > 1 ==> s[0] != '0'
    decreases n
  {
    if n < 10 then [DigitChar(n)] else FormatNat(n / 10) + [DigitChar(n % 10)]
  }

  /** `strconv.FormatInt(n, 10)`: a minus sign for negative numbers, then the digits. */
  function FormatInt(n: int): (s: string)
    ensures |s| >= 1
    ensures s[0] == '-' <==> n < 0
  {
    if n < 0 then "-" + FormatNat(-n) else FormatNat(n)
  }

  /** The value of a string of digits, most significant first. */
  function DigitsValue(s: string): nat
    requires forall i :: 0 <= i < |s| ==> IsDigit(s[i])
  {
    if s == [] then 0 else DigitsValue(s[..|s| - 1]) * 10 + DigitValue(s[|s| - 1])
  }

  /** At least one digit, and no leading zero unless the number is zero itself. */
  predicate Canonical(s: string)
  {
    && |s| >= 1
    && (forall i :: 0 <= i < |s| ==> IsDigit(s[i]))
    && (|s| > 1 ==> s[0] != '0')
  }

  /**
   * Reads exactly the strings `FormatInt` writes: an optional minus sign, then
   * canonical digits, where "-0" is refused.
   */
  function ParseInt(s: string): Option<int>
  {
    if |s| >= 2 && s[0] == '-' && Canonical(s[1..]) && s[1..] != "0" then
      Some(-(DigitsValue(s[1..]) as int))
    else if Canonical(s) then
      Some(DigitsValue(s))
    else
      None
  }

  lemma {:induction false} DigitsOfFormatNat(n: nat)
    ensures DigitsValue(FormatNat(n)) == n
    decreases n
  {
    if n >= 10 {
      var s := FormatNat(n);
      assert s[..|s| - 1] == FormatNat(n / 10);
      DigitsOfFormatNat(n / 10);
    }
  }

  /** Reading back a rendered integer gives the integer. */
  lemma FormatIntRoundTrip(n: int)
    ensures ParseInt(FormatInt(n)) == Some(n)
  {
    var digits := FormatNat(if n < 0 then -n else n);
    DigitsOfFormatNat(if n < 0 then -n else n);
    assert Canonical(digits);
    if n < 0 {
      var s := FormatInt(n);
      assert s == "-" + digits && s[1..] == digits;
      assert digits != "0";
    } else {
      assert !(|digits| >= 2 && digits[0] == '-');
    }
  }

  /** Canonical digits other than "0" stand for a positive number. */
  lemma {:induction false} CanonicalPositive(s: string)
    requires Canonical(s) && s != "0"
    ensures DigitsValue(s) > 0
    decreases |s|
  {
    if |s| > 1 {
      var prefix := s[..|s| - 1];
      assert prefix[0] == s[0];
      if |prefix| == 1 {
        assert prefix == [s[0]];
      }
      CanonicalPositive(prefix);
    }
  }

  /** Canonical digits are what `FormatNat` writes for their value. */
  lemma {:induction false} FormatNatOfDigits(s: string)
    requires Canonical(s)
    ensures FormatNat(DigitsValue(s)) == s
    decreases |s|
  {
    if |s| == 1 {
      assert s == [DigitChar(DigitValue(s[0]))];
    } else {
      var prefix := s[..|s| - 1];
      assert prefix[0] == s[0];
      if |prefix| == 1 {
        assert prefix == [s[0]];
      }
      CanonicalPositive(prefix);
      FormatNatOfDigits(prefix);
      var v := DigitsValue(s);
      assert v / 10 == DigitsValue(prefix) && v % 10 == DigitValue(s[|s| - 1]);
      assert s == prefix + [s[|s| - 1]];
    }
  }

  /** Whatever parses was written by `FormatInt`: the parser accepts one spelling per number. */
  lemma ParseIntCanonical(s: string, n: int)
    requires ParseInt(s) == Some(n)
    ensures s == FormatInt(n)
  {
    if |s| >= 2 && s[0] == '-' && Canonical(s[1..]) && s[1..] != "0" {
      FormatNatOfDigits(s[1..]);
      CanonicalPositive(s[1..]);
      assert s == "-" + s[1..];
    } else {
      FormatNatOfDigits(s);
    }
  }

  /** Distinct timestamps render to distinct strings. */
  lemma FormatIntInjective(a: int, b: int)
    requires FormatInt(a) == FormatInt(b)
    ensures a == b
  {
    FormatIntRoundTrip(a);
    FormatIntRoundTrip(b);
  }
}

=== FILE: registry.dfy ===
/**
 * `preferencesMap` (data/binding/pref_helper.go): the table from store identity
 * to its binding set, plus the remembered application store `appPrefs`.
 * Locks are left out: every operation runs to completion before the next.
 */
module Registry {
  import opened Wrappers
  import opened Stores
  import opened Bindings

  datatype Registry = Registry(prefs: map<StoreId, BindingSet>, appPrefs: Option<StoreId>)

  /**
   * `newPreferencesMap()`: a table holding no store and remembering no
   * application store, so nothing can be pending and every first attachment
   * starts an empty set.
   */
  function Initial(): (r: Registry)
    ensures r.appPrefs == None
    ensures forall p :: Get(r.prefs, p) == None
    ensures forall p, current :: !MigrationPending(r, p, current)
    ensures forall w, p :: EnsureAttached(r, w, p).binds == Empty
  {
    Registry(map[], None)
  }

  /** What the registry does to the items it holds. */
  datatype Event =
    | ReplaceProvider(item: Item, store: StoreId)
    | CheckForChange(item: Item)

  /** A migration reads the binding set of the old store through a nil pointer. */
  datatype Fault = NilBindingSet

  datatype Attached = Attached(reg: Registry, world: World, binds: BindingSet)
  datatype Lookup = Lookup(reg: Registry, binds: Option<BindingSet>, events: seq<Event>)
  datatype Step = Step(reg: Registry, events: seq<Event>)

  /**
   * `ensurePreferencesAttached(p)`: the set already held for `p`, or else a new
   * empty set for `p` together with one `RegistryHook` listener on `p`.
   */
  function EnsureAttached(m: Registry, w: World, p: StoreId): (r: Attached)
    ensures p in r.reg.prefs && r.binds == r.reg.prefs[p]
    ensures r.reg.appPrefs == m.appPrefs
    ensures forall q :: q != p ==> Get(r.reg.prefs, q) == Get(m.prefs, q)
    ensures forall q :: q != p ==> ListenersOf(r.world, q) == ListenersOf(w, q)
    ensures p in m.prefs ==> r == Attached(m, w, m.prefs[p])
    ensures p !in m.prefs ==> r.binds == Empty
    ensures p !in m.prefs ==> ListenersOf(r.world, p) == ListenersOf(w, p) + [RegistryHook]
  {
    if p in m.prefs then
      Attached(m, w, m.prefs[p])
    else
      Attached(m.(prefs := m.prefs[p := Empty]), AddChangeListener(w, p, RegistryHook), Empty)
  }

  /** Attaching an attached store again is a pure lookup: no new set, no second listener. */
  lemma AttachIdempotent(m: Registry, w: World, p: StoreId)
    ensures var a := EnsureAttached(m, w, p);
            EnsureAttached(a.reg, a.world, p) == a
  {
  }

  /**
   * `setItem(key, item)` through the pointer that `ensurePreferencesAttached`
   * or `getBindings` handed out: the write lands in the set the table holds for
   * `p`. Those calls only hand out sets the table holds, so `p` is attached.
   */
  function WriteItem(m: Registry, p: StoreId, key: Key, item: Item): (r: Registry)
    requires p in m.prefs
    ensures p in r.prefs && GetItem(r.prefs[p], key) == Some(item)
    ensures forall k :: k != key ==> GetItem(r.prefs[p], k) == GetItem(m.prefs[p], k)
    ensures r.prefs.Keys == m.prefs.Keys && r.appPrefs == m.appPrefs
    ensures forall q :: q != p ==> Get(r.prefs, q) == Get(m.prefs, q)
  {
    m.(prefs := m.prefs[p := SetItem(m.prefs[p], key, item)])
  }

  /** The application store the registry sees now differs from the one it remembers. */
  predicate MigrationPending(m: Registry, p: StoreId, current: StoreId)
  {
    p == current && m.appPrefs.Some? && m.appPrefs.value != p
  }

  /** The table after moving the set of `p1` to `p2` (lines 103-105). */
  function Migrated(m: Registry, p1: StoreId, p2: StoreId): (r: Registry)
    requires p1 in m.prefs
    ensures r.appPrefs == Some(p2)
    ensures p1 != p2 ==> p2 in r.prefs && r.prefs[p2] == m.prefs[p1]
    ensures p1 != p2 ==> p1 !in r.prefs && r.prefs.Keys == m.prefs.Keys - {p1} + {p2}
    ensures p1 == p2 ==> r.prefs == m.prefs - {p1}
    ensures forall q :: q != p1 && q != p2 ==> Get(r.prefs, q) == Get(m.prefs, q)
  {
    Registry(m.prefs[p2 := m.prefs[p1]] - {p1}, Some(p2))
  }

  /**
   * A migration between two distinct stores moves the set to the new key,
   * overwriting what was there, drops the old key and keeps every other entry.
   */
  lemma MigratedFrame(m: Registry, p1: StoreId, p2: StoreId)
    requires p1 in m.prefs && p1 != p2
    ensures var m' := Migrated(m, p1, p2);
            && p2 in m'.prefs && m'.prefs[p2] == m.prefs[p1]
            && p1 !in m'.prefs
            && m'.appPrefs == Some(p2)
            && m'.prefs.Keys == m.prefs.Keys - {p1} + {p2}
            && (forall q :: q != p1 && q != p2 ==> Get(m'.prefs, q) == Get(m.prefs, q))
  {
  }

  /** One `checkForChange` per listed item, in list order. */
  function Checks(items: seq<Item>): (es: seq<Event>)
    ensures |es| == |items|
    ensures forall e :: e in es ==> e.CheckForChange? && e.item in items
    ensures forall i :: i in items ==> CheckForChange(i) in es
    ensures forall i :: multiset(es)[CheckForChange(i)] == multiset(items)[i]
  {
    if items == [] then []
    else
      assert items == [items[0]] + items[1..];
      [CheckForChange(items[0])] + Checks(items[1..])
  }

  /** One `replaceProvider(p)` per listed item that supports it, in list order. */
  function Retargets(items: seq<Item>, p: StoreId): (es: seq<Event>)
    ensures forall e :: e in es ==> e.ReplaceProvider? && e.store == p && e.item.retargetable && e.item in items
    ensures forall i :: i in items && i.retargetable ==> ReplaceProvider(i, p) in es
    ensures forall i :: multiset(es)[ReplaceProvider(i, p)] == (if i.retargetable then multiset(items)[i] else 0)
    ensures |es| <= |items|
    ensures (forall i :: i in items ==> !i.retargetable) ==> es == []
  {
    if items == [] then []
    else
      assert items == [items[0]] + items[1..];
      (if items[0].retargetable then [ReplaceProvider(items[0], p)] else []) + Retargets(items[1..], p)
  }

  /** The keys of `b` whose items support `replaceProvider`. */
  function RetargetableKeys(b: BindingSet): set<Key>
  {
    set k | k in b.items && b.items[k].retargetable
  }

  /** The keys of `ks` whose items in `m` support `replaceProvider`. */
  function RetargetableAlong(ks: seq<Key>, m: map<Key, Item>): (r: set<Key>)
    ensures forall k :: k in r <==> k in ks && k in m && m[k].retargetable
  {
    if ks == [] then {}
    else
      assert ks == [ks[0]] + ks[1..];
      (if ks[0] in m && m[ks[0]].retargetable then {ks[0]} else {}) + RetargetableAlong(ks[1..], m)
  }

  /** Re-targeting along a duplicate-free run of keys calls once per re-targetable key of the run. */
  lemma {:induction false} RetargetsCount(ks: seq<Key>, m: map<Key, Item>, p: StoreId)
    requires Distinct(ks) && forall i :: 0 <= i < |ks| ==> ks[i] in m
    ensures |Retargets(ItemsAt(m, ks), p)| == |RetargetableAlong(ks, m)|
    decreases |ks|
  {
    if ks != [] {
      var rest := ks[1..];
      DistinctTail(ks, m);
      RetargetsCount(rest, m, p);
      ItemsAtCons(m, ks);
      RetargetsCons(m[ks[0]], ItemsAt(m, rest), p);
      AlongCons(ks, m);
    }
  }

  lemma RetargetsCons(x: Item, ys: seq<Item>, p: StoreId)
    ensures |Retargets([x] + ys, p)| == (if x.retargetable then 1 else 0) + |Retargets(ys, p)|
  {
    assert ([x] + ys)[0] == x && ([x] + ys)[1..] == ys;
  }

  lemma AlongCons(ks: seq<Key>, m: map<Key, Item>)
    requires ks != [] && ks[0] !in ks[1..]
    ensures |RetargetableAlong(ks, m)|
            == (if ks[0] in m && m[ks[0]].retargetable then 1 else 0) + |RetargetableAlong(ks[1..], m)|
  {
    assert ks[0] !in RetargetableAlong(ks[1..], m);
  }

  /** A re-targeting loop calls `replaceProvider` once per re-targetable key of the set. */
  lemma RetargetingLength(es: seq<Event>, b: BindingSet, p: StoreId)
    requires Retargeting(es, b, p)
    ensures |es| == |RetargetableKeys(b)|
  {
    var ret :| IsListing(ret, b.items) && es == Retargets(ret, p);
    ListingRetargetsLength(ret, b, p);
  }

  lemma ListingRetargetsLength(ret: seq<Item>, b: BindingSet, p: StoreId)
    requires IsListing(ret, b.items)
    ensures |Retargets(ret, p)| == |RetargetableKeys(b)|
  {
    var ks :| KeyOrder(ks, b.items) && ret == ItemsAt(b.items, ks);
    RetargetsCount(ks, b.items, p);
    AlongAllKeys(ks, b);
  }

  lemma AlongAllKeys(ks: seq<Key>, b: BindingSet)
    requires KeyOrder(ks, b.items)
    ensures RetargetableAlong(ks, b.items) == RetargetableKeys(b)
  {
  }

  /** A migration sends one event per re-targetable key and then one per key. */
  lemma MigrationLength(es: seq<Event>, b: BindingSet, p: StoreId)
    requires MigrationTrace(es, b, p)
    ensures |es| == |RetargetableKeys(b)| + |b.items|
  {
    var n :| 0 <= n <= |es| && Retargeting(es[..n], b, p) && Sweep(es[n..], b);
    RetargetingLength(es[..n], b, p);
    SweepShape(es[n..], b);
  }

  /** `es` is one `preferencesChanged` sweep over `b`: a check for every item. */
  ghost predicate Sweep(es: seq<Event>, b: BindingSet)
  {
    exists ret :: IsListing(ret, b.items) && es == Checks(ret)
  }

  /** `es` is the re-targeting loop of a migration to `p` over `b`. */
  ghost predicate Retargeting(es: seq<Event>, b: BindingSet, p: StoreId)
  {
    exists ret :: IsListing(ret, b.items) && es == Retargets(ret, p)
  }

  /** A whole migration: re-targeting first, then one sweep. */
  ghost predicate MigrationTrace(es: seq<Event>, b: BindingSet, p: StoreId)
  {
    exists n :: 0 <= n <= |es| && Retargeting(es[..n], b, p) && Sweep(es[n..], b)
  }

  /** A sweep checks every item of the set once per key, and does nothing else. */
  lemma SweepShape(es: seq<Event>, b: BindingSet)
    requires Sweep(es, b)
    ensures |es| == |b.items|
    ensures forall e :: e in es ==> e.CheckForChange? && e.item in b.items.Values
    ensures forall k :: k in b.items ==> CheckForChange(b.items[k]) in es
    ensures forall i :: multiset(es)[CheckForChange(i)] == |KeysHolding(b.items, i)|
  {
    var ret :| IsListing(ret, b.items) && es == Checks(ret);
    ListingShape(ret, b.items);
    ChecksOfListing(ret, b.items);
    ListingCount(ret, b.items);
  }

  lemma ChecksOfListing(ret: seq<Item>, m: map<Key, Item>)
    requires forall i :: 0 <= i < |ret| ==> ret[i] in m.Values
    requires forall k :: k in m ==> m[k] in ret
    ensures forall e :: e in Checks(ret) ==> e.CheckForChange? && e.item in m.Values
    ensures forall k :: k in m ==> CheckForChange(m[k]) in Checks(ret)
  {
    var es := Checks(ret);
    forall e | e in es ensures e.CheckForChange? && e.item in m.Values {
      var j :| 0 <= j < |ret| && ret[j] == e.item;
    }
  }


  /** A re-targeting loop calls `replaceProvider(p)` on exactly the items that support it. */
  lemma RetargetingShape(es: seq<Event>, b: BindingSet, p: StoreId)
    requires Retargeting(es, b, p)
    ensures forall e :: e in es ==> e.ReplaceProvider? && e.store == p && e.item.retargetable && e.item in b.items.Values
    ensures forall k :: k in b.items && b.items[k].retargetable ==> ReplaceProvider(b.items[k], p) in es
    ensures forall i :: multiset(es)[ReplaceProvider(i, p)]
                        == (if i.retargetable then |KeysHolding(b.items, i)| else 0)
  {
    var ret :| IsListing(ret, b.items) && es == Retargets(ret, p);
    ListingShape(ret, b.items);
    ListingCount(ret, b.items);
  }

  /**
   * Every event of `es` concerns an item of `b`: a change check, or a
   * re-targeting to `p` of an item that supports it.
   */
  ghost predicate Touches(es: seq<Event>, b: BindingSet, p: StoreId)
  {
    forall e :: e in es ==>
      && e.item in b.items.Values
      && (e.ReplaceProvider? ==> e.store == p && e.item.retargetable)
  }

  /** `es` checks every item of `b`. */
  ghost predicate ChecksAll(es: seq<Event>, b: BindingSet)
  {
    forall k :: k in b.items ==> CheckForChange(b.items[k]) in es
  }

  /** `es` re-targets to `p` every item of `b` that supports it. */
  ghost predicate RetargetsAll(es: seq<Event>, b: BindingSet, p: StoreId)
  {
    forall k :: k in b.items && b.items[k].retargetable ==> ReplaceProvider(b.items[k], p) in es
  }

  lemma CoversSplit(es: seq<Event>, n: nat, b: BindingSet, p: StoreId)
    requires n <= |es| && RetargetsAll(es[..n], b, p) && ChecksAll(es[n..], b)
    ensures RetargetsAll(es, b, p) && ChecksAll(es, b)
  {
    assert es == es[..n] + es[n..];
  }

  /** A migration re-targets every re-targetable item of the moved set and checks every item. */
  lemma MigrationCovers(es: seq<Event>, b: BindingSet, p: StoreId)
    requires MigrationTrace(es, b, p)
    ensures ChecksAll(es, b) && RetargetsAll(es, b, p)
  {
    var n :| 0 <= n <= |es| && Retargeting(es[..n], b, p) && Sweep(es[n..], b);
    RetargetingCovers(es[..n], b, p);
    SweepCovers(es[n..], b);
    CoversSplit(es, n, b, p);
  }

  lemma RetargetingCovers(es: seq<Event>, b: BindingSet, p: StoreId)
    requires Retargeting(es, b, p)
    ensures RetargetsAll(es, b, p)
  {
    RetargetingShape(es, b, p);
  }

  lemma SweepCovers(es: seq<Event>, b: BindingSet)
    requires Sweep(es, b)
    ensures ChecksAll(es, b)
  {
    SweepShape(es, b);
  }

  lemma TouchesConcat(es: seq<Event>, n: nat, b: BindingSet, p: StoreId)
    requires n <= |es| && Touches(es[..n], b, p) && Touches(es[n..], b, p)
    ensures Touches(es, b, p)
  {
    assert es == es[..n] + es[n..];
  }

  /** A sweep only checks items of its set. */
  lemma SweepTouches(es: seq<Event>, b: BindingSet, p: StoreId)
    requires Sweep(es, b)
    ensures Touches(es, b, p)
  {
    SweepShape(es, b);
  }

  /** A migration only re-targets items of the moved set to the new store, and only checks items of that set. */
  lemma MigrationTouches(es: seq<Event>, b: BindingSet, p: StoreId)
    requires MigrationTrace(es, b, p)
    ensures Touches(es, b, p)
  {
    var n :| 0 <= n <= |es| && Retargeting(es[..n], b, p) && Sweep(es[n..], b);
    RetargetingShape(es[..n], b, p);
    SweepTouches(es[n..], b, p);
    TouchesConcat(es, n, b, p);
  }

  /**
   * What one sweep of `b` amounts to: it checks every item of `b`, touches
   * nothing else, and sends one event per key.
   */
  lemma SweepFacts(es: seq<Event>, b: BindingSet, p: StoreId)
    requires Sweep(es, b)
    ensures Touches(es, b, p) && ChecksAll(es, b) && |es| == |b.items|
    ensures CheckCounts(es, b, 1) && RetargetCounts(es, b, p, false)
  {
    SweepShape(es, b);
    forall i ensures multiset(es)[ReplaceProvider(i, p)] == 0 {
      assert ReplaceProvider(i, p) !in es;
    }
  }

  /** `es` checks each item of `b` `times` times for every key that holds it. */
  ghost predicate CheckCounts(es: seq<Event>, b: BindingSet, times: nat)
  {
    forall i :: multiset(es)[CheckForChange(i)] == times * |KeysHolding(b.items, i)|
  }

  /**
   * `es` re-targets to `p` each re-targetable item of `b` once for every key
   * that holds it when `on`, and nothing at all otherwise.
   */
  ghost predicate RetargetCounts(es: seq<Event>, b: BindingSet, p: StoreId, on: bool)
  {
    forall i :: multiset(es)[ReplaceProvider(i, p)] == (if on && i.retargetable then |KeysHolding(b.items, i)| else 0)
  }

  /** A migration re-targets each re-targetable item once per key holding it, then checks each item once per key. */
  lemma MigrationCounts(es: seq<Event>, b: BindingSet, p: StoreId)
    requires MigrationTrace(es, b, p)
    ensures CheckCounts(es, b, 1) && RetargetCounts(es, b, p, true)
  {
    var n :| 0 <= n <= |es| && Retargeting(es[..n], b, p) && Sweep(es[n..], b);
    RetargetingCounts(es[..n], b, p);
    SweepFacts(es[n..], b, p);
    CountsSplit(es, n, b, p, 0, 1, 1, true, false, true);
  }

  lemma RetargetingCounts(es: seq<Event>, b: BindingSet, p: StoreId)
    requires Retargeting(es, b, p)
    ensures CheckCounts(es, b, 0) && RetargetCounts(es, b, p, true)
  {
    RetargetingShape(es, b, p);
    forall i ensures multiset(es)[CheckForChange(i)] == 0 {
      assert CheckForChange(i) !in es;
    }
  }

  /** Counts add up over the two halves of a trace. */
  lemma CountsSplit(es: seq<Event>, n: nat, b: BindingSet, p: StoreId,
                    t1: nat, t2: nat, t: nat, on1: bool, on2: bool, on: bool)
    requires n <= |es| && !(on1 && on2) && t == t1 + t2 && on == (on1 || on2)
    requires CheckCounts(es[..n], b, t1) && CheckCounts(es[n..], b, t2)
    requires RetargetCounts(es[..n], b, p, on1) && RetargetCounts(es[n..], b, p, on2)
    ensures CheckCounts(es, b, t) && RetargetCounts(es, b, p, on)
  {
    assert es == es[..n] + es[n..];
    assert multiset(es) == multiset(es[..n]) + multiset(es[n..]);
    forall i ensures multiset(es)[CheckForChange(i)] == t * |KeysHolding(b.items, i)| {
      var h := |KeysHolding(b.items, i)|;
      assert (t1 + t2) * h == t1 * h + t2 * h;
    }
  }

  /**
   * What a migration to `p` followed by a second sweep of the moved set `b`
   * amounts to: every item checked, every re-targetable item re-targeted to
   * `p`, nothing else touched, and one event per re-targetable key plus two
   * per key.
   */
  /** Counts add up over the concatenation of two traces. */
  lemma CountsConcat(es1: seq<Event>, es2: seq<Event>, b: BindingSet, p: StoreId,
                     t1: nat, t2: nat, t: nat, on1: bool, on2: bool, on: bool)
    requires !(on1 && on2) && t == t1 + t2 && on == (on1 || on2)
    requires CheckCounts(es1, b, t1) && CheckCounts(es2, b, t2)
    requires RetargetCounts(es1, b, p, on1) && RetargetCounts(es2, b, p, on2)
    ensures CheckCounts(es1 + es2, b, t) && RetargetCounts(es1 + es2, b, p, on)
  {
    var es := es1 + es2;
    assert es[..|es1|] == es1 && es[|es1|..] == es2;
    CountsSplit(es, |es1|, b, p, t1, t2, t, on1, on2, on);
  }

  lemma MigrationSweepFacts(es: seq<Event>, n: nat, b: BindingSet, p: StoreId)
    requires n <= |es| && MigrationTrace(es[..n], b, p) && Sweep(es[n..], b)
    ensures Touches(es, b, p) && ChecksAll(es, b) && RetargetsAll(es, b, p)
    ensures |es| == |RetargetableKeys(b)| + 2 * |b.items|
    ensures CheckCounts(es, b, 2) && RetargetCounts(es, b, p, true)
  {
    MigrationTouches(es[..n], b, p);
    MigrationCovers(es[..n], b, p);
    MigrationLength(es[..n], b, p);
    MigrationCounts(es[..n], b, p);
    SweepFacts(es[n..], b, p);
    TouchesConcat(es, n, b, p);
    CoversSplit(es, n, b, p);
    CountsSplit(es, n, b, p, 1, 1, 2, true, false, true);
  }

  /**
   * `getBindings(p)` with `current` the application's current store. Looking up
   * the current store records it on first use and migrates when it has changed.
   */
  method GetBindings(m: Registry, p: StoreId, current: StoreId) returns (r: Result<Lookup, Fault>)
    decreases if MigrationPending(m, p, current) then 1 else 0, 1
    ensures p != current ==> r == Success(Lookup(m, Get(m.prefs, p), []))
    ensures p == current && m.appPrefs == None ==> r == Success(Lookup(m.(appPrefs := Some(p)), Get(m.prefs, p), []))
    ensures m.appPrefs == Some(p) ==> r == Success(Lookup(m, Get(m.prefs, p), []))
    ensures MigrationPending(m, p, current) ==>
              (r.Failure? <==> m.appPrefs.value !in m.prefs)
    ensures MigrationPending(m, p, current) && r.Success? ==>
              && m.appPrefs.value in m.prefs
              && r.value.reg == Migrated(m, m.appPrefs.value, p)
              && r.value.binds == Some(m.prefs[m.appPrefs.value])
              && MigrationTrace(r.value.events, m.prefs[m.appPrefs.value], p)
    ensures p == current && r.Success? ==> r.value.reg.appPrefs == Some(p)
  {
    if p == current {
      if m.appPrefs == None {
        return Success(Lookup(m.(appPrefs := Some(p)), Get(m.prefs, p), []));
      } else if m.appPrefs.value != p {
        var s := Migrate(m, m.appPrefs.value, p, current);
        if s.Failure? {
          return Failure(s.error);
        }
        return Success(Lookup(s.value.reg, Get(s.value.reg.prefs, p), s.value.events));
      }
    }
    return Success(Lookup(m, Get(m.prefs, p), []));
  }

  /**
   * `preferencesChanged(p)`: look `p` up (which may migrate) and, when a set is
   * found, send `checkForChange` to each of its items.
   */
  method PreferencesChanged(m: Registry, p: StoreId, current: StoreId) returns (r: Result<Step, Fault>)
    decreases if MigrationPending(m, p, current) then 1 else 0, 2
    ensures !MigrationPending(m, p, current) ==> r.Success?
    ensures !MigrationPending(m, p, current) && r.Success? ==>
              && r.value.reg == (if p == current then m.(appPrefs := Some(p)) else m)
              && (p !in m.prefs ==> r.value.events == [])
              && (p in m.prefs ==> Sweep(r.value.events, m.prefs[p]))
    ensures MigrationPending(m, p, current) ==>
              (r.Failure? <==> m.appPrefs.value !in m.prefs)
    ensures MigrationPending(m, p, current) && r.Success? ==>
              && m.appPrefs.value in m.prefs
              && r.value.reg == Migrated(m, m.appPrefs.value, p)
              && var b := m.prefs[m.appPrefs.value];
                 exists n :: 0 <= n <= |r.value.events|
                   && MigrationTrace(r.value.events[..n], b, p)
                   && Sweep(r.value.events[n..], b)
  {
    var l := GetBindings(m, p, current);
    if l.Failure? {
      return Failure(l.error);
    }
    var found := l.value;
    if found.binds == None {
      return Success(Step(found.reg, found.events));
    }
    var items := List(found.binds.value);
    var es := found.events + Checks(items);
    assert Sweep(Checks(items), found.binds.value);
    assert es[..|found.events|] == found.events && es[|found.events|..] == Checks(items);
    return Success(Step(found.reg, es));
  }

  /**
   * `migratePreferences(p1, p2)`: move the set of `p1` to `p2`, remember `p2`,
   * re-target the items that support it, then run one change sweep on `p2`.
   * When `p1` holds no set (or is `p2` itself) the entry read back at line 107
   * is nil and the call faults.
   */
  method Migrate(m: Registry, p1: StoreId, p2: StoreId, current: StoreId) returns (r: Result<Step, Fault>)
    decreases 1, 0
    ensures r.Failure? <==> p1 !in m.prefs || p1 == p2
    ensures r.Success? ==>
              && r.value.reg == Migrated(m, p1, p2)
              && MigrationTrace(r.value.events, m.prefs[p1], p2)
  {
    if p1 !in m.prefs || p1 == p2 {
      return Failure(NilBindingSet);
    }
    var moved := Migrated(m, p1, p2);
    var items := List(moved.prefs[p2]);
    var retargets := Retargets(items, p2);
    var changed := PreferencesChanged(moved, p2, current);
    var es := retargets + changed.value.events;
    assert Retargeting(retargets, m.prefs[p1], p2);
    assert es[..|retargets|] == retargets && es[|retargets|..] == changed.value.events;
    return Success(Step(changed.value.reg, es));
  }

  /**
   * An item written into the set of store `p` is seen by a later lookup: a
   * plain lookup of `p` returns it, and when `p` is the remembered application
   * store and the application has moved to `q`, the migration carries it to
   * `q`, checks it and, if it supports it, re-targets it to `q`.
   */
  method WriteThenLookup(m: Registry, p: StoreId, key: Key, item: Item, q: StoreId, current: StoreId)
    returns (r: Result<Lookup, Fault>)
    requires p in m.prefs
    ensures q == p && !MigrationPending(m, p, current) ==>
              && r.Success? && r.value.binds.Some? && r.value.events == []
              && GetItem(r.value.binds.value, key) == Some(item)
    ensures q == current && q != p && m.appPrefs == Some(p) ==>
              && r.Success? && r.value.binds.Some?
              && GetItem(r.value.binds.value, key) == Some(item)
              && q in r.value.reg.prefs && r.value.reg.prefs[q] == r.value.binds.value
              && CheckForChange(item) in r.value.events
              && (item.retargetable ==> ReplaceProvider(item, q) in r.value.events)
  {
    var written := WriteItem(m, p, key, item);
    r := GetBindings(written, q, current);
    if q == current && q != p && m.appPrefs == Some(p) && r.Success? {
      var b := written.prefs[p];
      MigrationCovers(r.value.events, b, q);
      assert key in b.items && b.items[key] == item;
    }
  }

  /**
   * Two lookups of the current store in a row: whatever the first one did, the
   * second is a plain lookup that changes nothing and sends nothing.
   */
  method RepeatedLookup(m: Registry, p: StoreId) returns (first: Result<Lookup, Fault>, second: Result<Lookup, Fault>)
    ensures first.Success? ==>
              && second == Success(Lookup(first.value.reg, Get(first.value.reg.prefs, p), []))
              && second.value.binds == first.value.binds
  {
    first := GetBindings(m, p, p);
    if first.Failure? {
      return first, first;
    }
    second := GetBindings(first.value.reg, p, p);
  }
}

=== FILE: stores.dfy ===
/**
 * The external preference store, reduced to what the rebinding logic observes:
 * its identity (reference equality in the source) and its ordered list of change
 * listeners. Values and persistence are not modelled.
 */
module Stores {

  /** A store instance; two stores are the same iff their identities are equal. */
  type StoreId = nat

  /**
   * A change listener (a Go `func()`). `RegistryHook` is the closure the binding
   * registry installs; it forwards to the registry's change handling for the
   * application's current store. Every other listener is opaque.
   */
  datatype Listener = RegistryHook | Handler(id: nat)

  /** The listener lists of all stores; a store absent from the map has none. */
  type World = map<StoreId, seq<Listener>>

  /** `ChangeListeners()` of store `s`. */
  function ListenersOf(w: World, s: StoreId): seq<Listener>
  {
    if s in w then w[s] else []
  }

  /** `AddChangeListener(l)` on store `s`: appends `l`, touches no other store. */
  function AddChangeListener(w: World, s: StoreId, l: Listener): (w': World)
    ensures ListenersOf(w', s) == ListenersOf(w, s) + [l]
    ensures forall t :: t != s ==> ListenersOf(w', t) == ListenersOf(w, t)
  {
    w[s := ListenersOf(w, s) + [l]]
  }
}

=== FILE: system.dfy ===
/**
 * The registry and the application together. The registry's change listener
 * (`RegistryHook`, installed at data/binding/pref_helper.go:71-73) runs
 * `preferencesChanged` on the application's current store; a provider
 * transition calls every listener of the old store once, so the first hook
 * call after a successful transition is what migrates the bindings.
 */
module System {
  import opened Wrappers
  import opened Stores
  import Registry
  import App
  import Bindings

  datatype State = State(app: App.App, reg: Registry.Registry)

  /**
   * The registry agrees with the application: it remembers the application's
   * store, holds a set for it, and every store it holds a set for carries the
   * registry's listener.
   */
  ghost predicate Linked(a: App.App, m: Registry.Registry)
  {
    && m.appPrefs == Some(a.prefs)
    && a.prefs in m.prefs
    && forall q :: q in m.prefs ==> RegistryHook in ListenersOf(a.stores, q)
  }

  /** The table the first hook call leaves behind when `current` is the application's store. */
  function AfterHook(m: Registry.Registry, current: StoreId): Registry.Registry
    requires Registry.MigrationPending(m, current, current) ==> m.appPrefs.value in m.prefs
  {
    if Registry.MigrationPending(m, current, current) then Registry.Migrated(m, m.appPrefs.value, current)
    else m.(appPrefs := Some(current))
  }

  /**
   * How many registry events the listener calls `ls` cause when `b` is the set
   * held for the current store afterwards: one sweep of `b` per registry
   * listener call, plus, when the first call migrates, the re-targeting pass
   * and the sweep that end the migration.
   */
  function HookCount(ls: seq<Listener>, b: Bindings.BindingSet, migrates: bool): nat
  {
    multiset(ls)[RegistryHook] * |b.items|
      + (if migrates then |Registry.RetargetableKeys(b)| + |b.items| else 0)
  }

  /**
   * How many times the listener calls `ls` check each binding of the current
   * store: once per registry listener call, and once more inside the
   * migration when the first call migrates.
   */
  function HookTimes(ls: seq<Listener>, migrates: bool): nat
  {
    multiset(ls)[RegistryHook] + (if migrates then 1 else 0)
  }

  /**
   * `changed` and `events` are what a successful `preferencesChanged(current)`
   * on `m` returns while `current` is the application's store.
   */
  ghost predicate ChangedBy(m: Registry.Registry, current: StoreId, changed: Registry.Registry, events: seq<Registry.Event>)
  {
    && (!Registry.MigrationPending(m, current, current) ==>
          && changed == m.(appPrefs := Some(current))
          && (current !in m.prefs ==> events == [])
          && (current in m.prefs ==> Registry.Sweep(events, m.prefs[current])))
    && (Registry.MigrationPending(m, current, current) ==>
          && m.appPrefs.value in m.prefs
          && changed == Registry.Migrated(m, m.appPrefs.value, current)
          && var b := m.prefs[m.appPrefs.value];
             exists n :: 0 <= n <= |events|
               && Registry.MigrationTrace(events[..n], b, current)
               && Registry.Sweep(events[n..], b))
  }

  /**
   * The registry and its trace after the listener calls `seen`, starting from
   * `m` with `current` the application's store.
   */
  ghost predicate HookState(m: Registry.Registry, seen: seq<Listener>, current: StoreId,
                            reg: Registry.Registry, es: seq<Registry.Event>)
  {
    var pending := Registry.MigrationPending(m, current, current);
    && (RegistryHook !in seen ==> reg == m && es == [])
    && (RegistryHook in seen ==>
          && (pending ==> m.appPrefs.value in m.prefs)
          && reg == AfterHook(m, current))
    && (current !in reg.prefs ==> es == [])
    && (current in reg.prefs ==>
          && Registry.Touches(es, reg.prefs[current], current)
          && |es| == HookCount(seen, reg.prefs[current], RegistryHook in seen && pending)
          && (RegistryHook in seen ==> Registry.ChecksAll(es, reg.prefs[current]))
          && (RegistryHook in seen && pending ==> Registry.RetargetsAll(es, reg.prefs[current], current))
          && Registry.CheckCounts(es, reg.prefs[current], HookTimes(seen, RegistryHook in seen && pending))
          && Registry.RetargetCounts(es, reg.prefs[current], current, RegistryHook in seen && pending))
  }

  /**
   * One listener call `l` after the calls `seen`: the registry's own listener
   * runs `preferencesChanged(current)`, any other listener changes nothing.
   */
  method HookStep(m: Registry.Registry, seen: seq<Listener>, l: Listener, seen': seq<Listener>, current: StoreId,
                  reg: Registry.Registry, es: seq<Registry.Event>)
    returns (r: Result<Registry.Step, Registry.Fault>)
    requires HookState(m, seen, current, reg, es) && seen' == seen + [l]
    ensures r.Failure? ==>
              && l == RegistryHook && RegistryHook !in seen
              && Registry.MigrationPending(m, current, current) && m.appPrefs.value !in m.prefs
    ensures r.Success? ==> HookState(m, seen', current, r.value.reg, r.value.events)
  {
    if l != RegistryHook {
      SkipStep(m, seen, l, seen', current, reg, es);
      return Success(Registry.Step(reg, es));
    }
    if RegistryHook in seen {
      r := LaterHook(m, seen, seen', current, reg, es);
    } else {
      r := FirstHook(m, seen, seen', current);
    }
  }

  /** The first registry listener call: `preferencesChanged(current)` on the untouched table. */
  method FirstHook(m: Registry.Registry, seen: seq<Listener>, seen': seq<Listener>, current: StoreId)
    returns (r: Result<Registry.Step, Registry.Fault>)
    requires HookState(m, seen, current, m, []) && RegistryHook !in seen && seen' == seen + [RegistryHook]
    ensures r.Failure? <==> Registry.MigrationPending(m, current, current) && m.appPrefs.value !in m.prefs
    ensures r.Success? ==> HookState(m, seen', current, r.value.reg, r.value.events)
  {
    r := HookRun(m, current);
    if r.Success? {
      FirstHookStep(m, seen, seen', current, r.value.reg, r.value.events);
    }
  }

  /** A later registry listener call: nothing is pending, so it sweeps once more. */
  method LaterHook(m: Registry.Registry, seen: seq<Listener>, seen': seq<Listener>, current: StoreId,
                   reg: Registry.Registry, es: seq<Registry.Event>)
    returns (r: Result<Registry.Step, Registry.Fault>)
    requires HookState(m, seen, current, reg, es) && RegistryHook in seen && seen' == seen + [RegistryHook]
    ensures r.Success? && HookState(m, seen', current, r.value.reg, r.value.events)
  {
    var changed := HookRun(reg, current);
    if changed.Failure? {
      assert false;
    }
    LaterHookStep(m, seen, seen', current, reg, es, changed.value.reg, changed.value.events);
    return Success(Registry.Step(changed.value.reg, es + changed.value.events));
  }

  /** The registry's listener: `preferencesChanged` on the application's current store. */
  method HookRun(m: Registry.Registry, current: StoreId) returns (r: Result<Registry.Step, Registry.Fault>)
    ensures r.Failure? <==> Registry.MigrationPending(m, current, current) && m.appPrefs.value !in m.prefs
    ensures r.Success? ==> ChangedBy(m, current, r.value.reg, r.value.events)
  {
    r := Registry.PreferencesChanged(m, current, current);
  }

  /** What the registry has done once all the listener calls `ls` are made. */
  lemma HookStateDone(m: Registry.Registry, ls: seq<Listener>, current: StoreId,
                      reg: Registry.Registry, es: seq<Registry.Event>)
    requires HookState(m, ls, current, reg, es)
    ensures RegistryHook !in ls ==> reg == m && es == []
    ensures RegistryHook in ls ==>
              !(Registry.MigrationPending(m, current, current) && m.appPrefs.value !in m.prefs)
    ensures RegistryHook in ls ==> reg == AfterHook(m, current)
    ensures current !in reg.prefs ==> es == []
    ensures current in reg.prefs ==> Registry.Touches(es, reg.prefs[current], current)
    ensures RegistryHook in ls && current in reg.prefs ==> Registry.ChecksAll(es, reg.prefs[current])
    ensures RegistryHook in ls && Registry.MigrationPending(m, current, current) ==>
              current in reg.prefs && Registry.RetargetsAll(es, reg.prefs[current], current)
    ensures current in reg.prefs ==>
              |es| == HookCount(ls, reg.prefs[current], RegistryHook in ls && Registry.MigrationPending(m, current, current))
    ensures current in reg.prefs ==>
              && Registry.CheckCounts(es, reg.prefs[current],
                                      HookTimes(ls, RegistryHook in ls && Registry.MigrationPending(m, current, current)))
              && Registry.RetargetCounts(es, reg.prefs[current], current,
                                         RegistryHook in ls && Registry.MigrationPending(m, current, current))
  {
  }

  /** A listener other than the registry's changes nothing. */
  lemma SkipStep(m: Registry.Registry, seen: seq<Listener>, l: Listener, seen': seq<Listener>, current: StoreId,
                 reg: Registry.Registry, es: seq<Registry.Event>)
    requires HookState(m, seen, current, reg, es) && l != RegistryHook && seen' == seen + [l]
    ensures HookState(m, seen', current, reg, es)
  {
    assert multiset(seen')[RegistryHook] == multiset(seen)[RegistryHook];
    assert RegistryHook in seen' <==> RegistryHook in seen;
  }

  /** The first registry listener call records or migrates, then sweeps. */
  lemma FirstHookStep(m: Registry.Registry, seen: seq<Listener>, seen': seq<Listener>, current: StoreId,
                      changed: Registry.Registry, events: seq<Registry.Event>)
    requires HookState(m, seen, current, m, []) && RegistryHook !in seen && seen' == seen + [RegistryHook]
    requires ChangedBy(m, current, changed, events)
    ensures HookState(m, seen', current, changed, events)
  {
    assert multiset(seen')[RegistryHook] == 1;
    assert RegistryHook in seen';
    if Registry.MigrationPending(m, current, current) {
      var b := m.prefs[m.appPrefs.value];
      var n :| 0 <= n <= |events| && Registry.MigrationTrace(events[..n], b, current) && Registry.Sweep(events[n..], b);
      Registry.MigrationSweepFacts(events, n, b, current);
      assert changed.prefs[current] == b;
    } else if current in m.prefs {
      Registry.SweepFacts(events, m.prefs[current], current);
    }
  }

  /** A later registry listener call finds nothing pending and sweeps once more. */
  lemma LaterHookStep(m: Registry.Registry, seen: seq<Listener>, seen': seq<Listener>, current: StoreId,
                      reg: Registry.Registry, es: seq<Registry.Event>,
                      changed: Registry.Registry, events: seq<Registry.Event>)
    requires HookState(m, seen, current, reg, es) && RegistryHook in seen && seen' == seen + [RegistryHook]
    requires ChangedBy(reg, current, changed, events)
    ensures HookState(m, seen', current, changed, es + events)
  {
    assert !Registry.MigrationPending(reg, current, current);
    assert changed == reg;
    assert RegistryHook in seen';
    if current in reg.prefs {
      HookCountMore(seen, reg.prefs[current], Registry.MigrationPending(m, current, current));
      Registry.SweepFacts(events, reg.prefs[current], current);
      SweepAppended(es, events, reg.prefs[current], current,
                    Registry.MigrationPending(m, current, current));
      var on := Registry.MigrationPending(m, current, current);
      assert multiset(seen')[RegistryHook] == multiset(seen)[RegistryHook] + 1;
      Registry.CountsConcat(es, events, reg.prefs[current], current,
                            HookTimes(seen, on), 1, HookTimes(seen', on), on, false, on);
    }
  }

  /** One more registry listener call adds one sweep's worth of events. */
  lemma HookCountMore(seen: seq<Listener>, b: Bindings.BindingSet, migrates: bool)
    ensures HookCount(seen + [RegistryHook], b, migrates) == HookCount(seen, b, migrates) + |b.items|
  {
    var h := multiset(seen)[RegistryHook];
    assert multiset(seen + [RegistryHook])[RegistryHook] == h + 1;
    assert (h + 1) * |b.items| == h * |b.items| + |b.items|;
  }

  lemma SweepAppended(es: seq<Registry.Event>, events: seq<Registry.Event>, b: Bindings.BindingSet,
                      current: StoreId, retargeted: bool)
    requires Registry.Touches(es, b, current) && Registry.Touches(events, b, current)
    requires Registry.ChecksAll(events, b)
    requires retargeted ==> Registry.RetargetsAll(es, b, current)
    ensures Registry.Touches(es + events, b, current) && Registry.ChecksAll(es + events, b)
    ensures retargeted ==> Registry.RetargetsAll(es + events, b, current)
  {
  }

  /**
   * The registry's reaction to the listener calls `ls` made while `current`
   * is the application's store: each `RegistryHook` call runs
   * `preferencesChanged(current)`; other listeners leave the registry alone.
   */
  method HookCalls(m: Registry.Registry, ls: seq<Listener>, current: StoreId)
    returns (r: Result<Registry.Step, Registry.Fault>)
    ensures RegistryHook !in ls ==> r == Success(Registry.Step(m, []))
    ensures RegistryHook in ls ==>
              (r.Failure? <==> Registry.MigrationPending(m, current, current) && m.appPrefs.value !in m.prefs)
    ensures RegistryHook in ls && r.Success? ==> r.value.reg == AfterHook(m, current)
    ensures r.Success? && current !in r.value.reg.prefs ==> r.value.events == []
    ensures r.Success? && current in r.value.reg.prefs ==>
              Registry.Touches(r.value.events, r.value.reg.prefs[current], current)
    ensures RegistryHook in ls && r.Success? && current in r.value.reg.prefs ==>
              Registry.ChecksAll(r.value.events, r.value.reg.prefs[current])
    ensures RegistryHook in ls && r.Success? && Registry.MigrationPending(m, current, current) ==>
              Registry.RetargetsAll(r.value.events, r.value.reg.prefs[current], current)
    ensures r.Success? && current in r.value.reg.prefs ==>
              |r.value.events| == HookCount(ls, r.value.reg.prefs[current],
                                            RegistryHook in ls && Registry.MigrationPending(m, current, current))
    ensures r.Success? && current in r.value.reg.prefs ==>
              && Registry.CheckCounts(r.value.events, r.value.reg.prefs[current],
                                      HookTimes(ls, RegistryHook in ls && Registry.MigrationPending(m, current, current)))
              && Registry.RetargetCounts(r.value.events, r.value.reg.prefs[current], current,
                                         RegistryHook in ls && Registry.MigrationPending(m, current, current))
  {
    var reg := m;
    var es: seq<Registry.Event> := [];
    var i := 0;
    while i < |ls|
      invariant 0 <= i <= |ls|
      invariant HookState(m, ls[..i], current, reg, es)
    {
      assert ls[..i + 1] == ls[..i] + [ls[i]];
      var step := HookStep(m, ls[..i], ls[i], ls[..i + 1], current, reg, es);
      if step.Failure? {
        return Failure(step.error);
      }
      reg, es := step.value.reg, step.value.events;
      i := i + 1;
    }
    assert ls[..|ls|] == ls;
    HookStateDone(m, ls, current, reg, es);
    return Success(Registry.Step(reg, es));
  }

  /**
   * `transitionCloud(p)` with the registry listening: the application step of
   * app/app.go:87-109, then the registry's reaction to the listener calls it
   * made on the new store.
   */
  method TransitionCloud(s: State, p: App.Provider, setupErr: Option<string>, newStore: StoreId)
    returns (r: Result<State, Registry.Fault>, appEvents: seq<App.Event>, regEvents: seq<Registry.Event>)
    ensures setupErr.Some? ==> r == Success(s) && regEvents == []
    ensures setupErr.Some? ==> appEvents == [App.LogError(App.SetupFailedPrefix + p.name, setupErr)]
    ensures appEvents == App.TransitionCloud(s.app, p, setupErr, newStore).events
    ensures r.Success? ==> r.value.app == App.TransitionCloud(s.app, p, setupErr, newStore).app
    ensures setupErr.None? && r.Success? ==>
              r.value.app.prefs == (if p.cloudPreferences.Some? then p.cloudPreferences.value else newStore)
    ensures setupErr.None? && Linked(s.app, s.reg) ==>
              && r.Success?
              && Linked(r.value.app, r.value.reg)
              && r.value.app.cloud == Some(p)
              && r.value.reg.prefs[r.value.app.prefs] == s.reg.prefs[s.app.prefs]
              && (r.value.app.prefs != s.app.prefs ==> s.app.prefs !in r.value.reg.prefs)
              && (forall q :: q != s.app.prefs && q != r.value.app.prefs ==>
                    Get(r.value.reg.prefs, q) == Get(s.reg.prefs, q))
              && Registry.Touches(regEvents, s.reg.prefs[s.app.prefs], r.value.app.prefs)
              && Registry.ChecksAll(regEvents, s.reg.prefs[s.app.prefs])
              && (r.value.app.prefs != s.app.prefs ==>
                    Registry.RetargetsAll(regEvents, s.reg.prefs[s.app.prefs], r.value.app.prefs))
              && |regEvents| == HookCount(ListenersOf(s.app.stores, s.app.prefs), s.reg.prefs[s.app.prefs],
                                          r.value.app.prefs != s.app.prefs)
              && Registry.CheckCounts(regEvents, s.reg.prefs[s.app.prefs],
                                      HookTimes(ListenersOf(s.app.stores, s.app.prefs), r.value.app.prefs != s.app.prefs))
              && Registry.RetargetCounts(regEvents, s.reg.prefs[s.app.prefs], r.value.app.prefs,
                                         r.value.app.prefs != s.app.prefs)
  {
    var step := App.TransitionCloud(s.app, p, setupErr, newStore);
    appEvents := step.events;
    if setupErr.Some? {
      return Success(s), appEvents, [];
    }
    var a := step.app;
    App.TransitionInvokesOldListeners(s.app, p, newStore);
    var invoked := App.Invocations(step.events);
    var hooks := HookCalls(s.reg, invoked, a.prefs);
    if hooks.Failure? {
      return Failure(hooks.error), appEvents, [];
    }
    regEvents := hooks.value.events;
    r := Success(State(a, hooks.value.reg));
    if Linked(s.app, s.reg) {
      assert RegistryHook in invoked;
      LinkedAfterTransition(s, a, hooks.value.reg);
    }
  }

  lemma LinkedAfterTransition(s: State, a: App.App, m': Registry.Registry)
    requires Linked(s.app, s.reg)
    requires ListenersOf(a.stores, a.prefs) == ListenersOf(s.app.stores, a.prefs) + ListenersOf(s.app.stores, s.app.prefs)
    requires forall t :: t != a.prefs ==> ListenersOf(a.stores, t) == ListenersOf(s.app.stores, t)
    requires m' == AfterHook(s.reg, a.prefs)
    ensures Linked(a, m')
    ensures m'.prefs[a.prefs] == s.reg.prefs[s.app.prefs]
    ensures a.prefs != s.app.prefs ==> s.app.prefs !in m'.prefs
    ensures forall q :: q != s.app.prefs && q != a.prefs ==> Get(m'.prefs, q) == Get(s.reg.prefs, q)
  {
    if a.prefs != s.app.prefs {
      Registry.MigratedFrame(s.reg, s.app.prefs, a.prefs);
    }
  }

  /**
   * A fresh application whose preferences get their first binding: the
   * registry starts empty, attaches the application's store (which registers
   * the registry's listener on it) and looks the store up, which records it
   * as the application's store. The result is linked.
   */
  method Startup(id: string, newStore: StoreId) returns (s: State, appEvents: seq<App.Event>, regEvents: seq<Registry.Event>)
    ensures s.app.uniqueID == id && s.app.prefs == newStore && s.app.cloud == None && !s.app.running
    ensures appEvents == App.NewApp(id, newStore).events
    ensures Linked(s.app, s.reg)
    ensures s.reg.prefs == map[newStore := Bindings.Empty]
    ensures ListenersOf(s.app.stores, newStore) == [RegistryHook]
    ensures regEvents == []
  {
    var start := App.NewApp(id, newStore);
    appEvents := start.events;
    var a := start.app;
    var attached := Registry.EnsureAttached(Registry.Initial(), a.stores, a.prefs);
    var l := Registry.GetBindings(attached.reg, a.prefs, a.prefs);
    s := State(a.(stores := attached.world), l.value.reg);
    regEvents := l.value.events;
    assert s.reg.prefs.Keys == {newStore};
  }
}

=== FILE: wrappers.dfy ===
/** Option and Result, shared by the model. */
module Wrappers {

  /** Stands for a Go value that may be nil. */
  datatype Option<+T> = None | Some(value: T)

  /** A computation that either finishes with a value or stops with a fault. */
  datatype Result<+T, +E> = Success(value: T) | Failure(error: E)

  /** Looks a key up in a map, None when it is absent (Go's zero value for a missing key). */
  function Get<K, V>(m: map<K, V>, k: K): (r: Option<V>)
    ensures r.Some? <==> k in m
    ensures r.Some? ==> r.value == m[k]
  {
    if k in m then Some(m[k]) else None
  }
}
